=== FILE: README.md ===
# multicolor.py: a Dafny model of the text-encoding core

`multicolor.py` turns an image into TIC-80 cartridge data. An image of more
than 16 colours is "multicolor": every scanline gets its own palette of up
to 16 or 31 colours (the `-r` range), optionally with a border colour
(`-b`) reserved as slot 0 of every line. An image of at most 16 colours is
"indexed": one global palette, filled up with the SWEETIE-16 default
palette. Either way the result is two hex text streams, pixels and
palette. Both are written as they are or run-length encoded (`-m rle`).

This project models that core as pure functions and proves what the
converter promises about it:

- `Frame`: the plan. It covers the mode, the per-line colour budget
  `workRange`, the hex width `digits`, the border hex and the screen-size
  checks.
- `Reducer`: `convert_range`. A row over budget goes through the
  quantizer; every other row is copied.
- `Serialize`: `get_multicolor` and `get_indexed`. They build the
  `(Pix, Pal)` streams: `'%0*x'` formatting, border segments, palette
  truncation, SWEETIE-16 fill and nibble swapping.
- `Reindex`: the re-indexing of an image of at most 16 colours against its
  own colours. Every pixel's slot holds its colour.
- `Rle`: the shared run-length code of `encode_rle16` and `encode_rle31`.
  It has three parts:
  - a functional definition: maximal runs, then tokens, then the final `0`;
  - the encoder loop as written, proved equal to the definition;
  - a reference decoder, proved to invert the encoder.
- `RleCodec`: the two encoders with their error cases, the `\` to `&`
  escape, and the dispatch between raw and run-length output.
- `Pipeline`: the two modes end to end. The run-length output exists, and
  reading it back gives every pixel's value.
- `Hex`, `Seqs`, `Picture`, `Wrappers`: hex formatting and parsing as
  Python does it, sequence helpers, colours and rows, `Option` and
  `Result`.

Python's `'%0*x' % (w, v)` pads to at least `w` digits and keeps every digit
of a wider value. `Hex.Format` models this for all naturals, so values that
are too wide show up in the model rather than being ruled out by a
precondition.

## Model

| member | source | states |
|---|---|---|
| Frame.MakePlan | multicolor.py:126-185 | Fails exactly when the image is wider than 240 or higher than 136 pixels, and reports width first. Otherwise the mode is multicolor iff there are more than 16 colours. Digits are 2 iff multicolor with a 31-colour range, else 1. In multicolor mode the budget plus the border slot equals the range. The plan's alphabet fits the digit width: `workRange` plus the border slot in multicolor mode, the 16 slots in indexed mode. |
| Frame.BorderHex | multicolor.py:164-166 | The border hex of an RGB colour is six characters and parses back, two digits per byte, to the colour's R, G, B. |
| Frame.BorderHexAsWritten | multicolor.py:90-95 | Built from the unchecked `-b` integers, which may be any `int`. It equals `BorderHex` when every component is in 0..255. It is at least six characters, longer when any component is 256 or more, and not hex when any component is negative. |
| Frame.NegativeBorderComponent | multicolor.py:161-166 | `-b -1 0 0` yields `-10000`, which is not hex. |
| Hex.FormatSigned | multicolor.py:164-166 | `'%0*x' % (w, v)` for any integer: a non-negative value is lower-case hex of `v` in at least `w` characters; a negative one is `-` followed by hex of its magnitude, at least two and at least `w` characters, and so not hex. |
| Frame.OversizedBorderComponent | multicolor.py:164-166 | `-b 300 0 0` yields the seven-character entry `12c0000`. |
| Reducer.ReduceRow | multicolor.py:276-289 | A row within budget is kept unchanged. A row over budget is replaced by the quantizer's output. When the quantizer keeps its promise, the result has the row's width and at most `workRange` colours. |
| Reducer.ReduceRowIdempotent | multicolor.py:278-287 | With a quantizer that keeps its promise, reducing an already reduced row changes nothing. |
| Reducer.ConvertRange | multicolor.py:270-291 | The loop produces one row per input row, each the reduced version of the input row. `alreadyOk` counts the rows within budget, and `alreadyOk + toReduce` is the number of rows. |
| Serialize.PixelRowsFlatten | multicolor.py:318-324 | Writing each row's pixels in turn is the same as formatting the row-major index sequence. |
| Serialize.PaletteRow | multicolor.py:309-331 | A line's palette text parses back, two digits per byte, to the border's bytes (if a border is set) followed by the first `3 * workRange` palette bytes, or fewer when the palette is shorter. Its length matches. |
| Serialize.MulticolorPixels | multicolor.py:303-324 | For `width`-pixel rows with in-budget indices and a consistent plan, the pixel stream has `digits` characters per pixel. It parses back to every index plus the border offset, row-major. With a border, no pixel value is 0. |
| Serialize.MulticolorPalette | multicolor.py:309-331 | When every row's palette holds at least `3 * workRange` bytes, the palette stream is one fixed-length segment per row. Segment `y` parses back to the border bytes and then exactly `workRange` colours of row `y`'s palette. |
| Serialize.MulticolorPaletteBytes | multicolor.py:309-331 | Whatever the length of each row's palette, the palette stream is the two-digit hex of each row's border bytes and copied palette bytes, row after row. It parses back to those bytes and is twice as long. |
| Serialize.MulticolorStreams | multicolor.py:303-332 | `get_multicolor` as a function of the plan and the quantized lines. It has no contract of its own: its pixel stream is described by `Serialize.MulticolorPixels`, its palette stream by `Serialize.MulticolorPalette` and `Serialize.MulticolorPaletteBytes`. |
| Serialize.IndexedStreams | multicolor.py:336-363 | `get_indexed` on a palette-mode image. The palette stream is 96 characters; swapped back it is the image's first 16 colours as hex, then SWEETIE-16 from the same offset. When every index is below 16, the pixel stream has one character per pixel and parses back to the indices, row-major. |
| Serialize.SwapPairs | multicolor.py:348 | Each output character comes from the position its two-character chunk's reversal puts there. A lone last character stays where it is. |
| Serialize.SwapPairsInvolution | multicolor.py:348 | Swapping the nibbles twice restores the text, so the decoder can undo the swap. |
| Serialize.IndexedPalette | multicolor.py:338-348 | The indexed palette is always 96 characters. Swapped back, it is the image's first 16 colours as hex, then SWEETIE-16 from the same offset. |
| Serialize.IndexedPixels | multicolor.py:349-363 | When every index is below 16, the pixel stream has one character per pixel and parses back to the indices, row-major. |
| Serialize.WideIndexOverflows | multicolor.py:353-358 | A palette-mode pixel with index 16 is written as two characters, `10`. |
| Reindex.Distinct | multicolor.py:154-156 | The list of distinct colours has no duplicates and contains exactly the colours of the pixels. |
| Reindex.NoDuplicatesCount | multicolor.py:154-156 | A duplicate-free colour list is as long as the image's colour count. |
| Reindex.Palettize | multicolor.py:377-381 | The re-indexed image keeps the image's shape. Every index is below the colour count, every pixel's slot holds that pixel's colour, and the palette has one slot per colour. |
| Rle.RunsSpec | multicolor.py:393-410 | The runs the loop forms are maximal (none empty, neighbours differ), expand back to the input, are empty only for empty input, and end with the last value. |
| Rle.RunsUnique | multicolor.py:393-405 | Any maximal runs that expand to the input are exactly the runs the encoder forms. |
| Rle.Encode | multicolor.py:389-413 | Encoding fails exactly on empty input, where the source raises reading `enc[-1]`. |
| Rle.EncodeLoop | multicolor.py:389-413 | The loop, with its `prev`/`count` bookkeeping, flushing on a new letter and final flush and `0` rule, computes exactly `Encode`. |
| Rle.EncodeDecode | multicolor.py:389-413 | Round trip: decoding the encoded text gives back exactly the input values. |
| Rle.EncodeEndsInDigit | multicolor.py:411-412 | The text always ends in a character `isdigit` accepts. It ends in an ASCII digit unless the last value's letter is itself a superscript digit. |
| Rle.EncodeAlphabet | multicolor.py:394-401 | The text consists of value letters (`chr(v + 65)`) and ASCII digits only. |
| Rle.DecodeToken | multicolor.py:396-401 | One token, followed by text that does not start with a digit, decodes to its run. |
| RleCodec.Rle16 | multicolor.py:389-413 | The one-digit encoder. It fails with a bad digit iff some character is not an ASCII hex digit, with no data iff the text is empty, and succeeds otherwise. |
| RleCodec.Rle16RoundTrip | multicolor.py:389-413 | Decoding the one-digit encoder's output gives every hex digit's value. |
| RleCodec.PairText | multicolor.py:421 | The characters `zip` pairs up: an even-length prefix that drops at most the odd last character. |
| RleCodec.Escape | multicolor.py:441 | Replaces `\` by `&` and leaves every other character. No `\` remains. |
| RleCodec.UnescapeEscape | multicolor.py:441 | On text without `&`, which includes all run-length text, the escape can be undone. |
| RleCodec.Rle31 | multicolor.py:417-442 | The two-digit encoder. It fails with a bad digit iff a pair is not two ASCII hex digits, with no data iff there is no whole pair, and succeeds otherwise. Its output never contains `\`. |
| RleCodec.Rle31RoundTrip | multicolor.py:417-442 | Unescaping and decoding the two-digit encoder's output gives every pair's value. |
| RleCodec.Compress | multicolor.py:446-455 | Raw output passes both streams through. Run-length output uses the one-digit encoder for the palette and the encoder matching `digits` for the pixels. It succeeds iff both encoders do. |
| RleCodec.CompressRoundTrip | multicolor.py:446-452 | Both compressed streams read back to the values the hex streams held. |
| Pipeline.StreamsOf | multicolor.py:366-385 | The mode branch. A multicolor plan serializes the quantized lines with `get_multicolor`. Otherwise the image goes through the lossless re-indexing `Reindex.Palettize` and then `get_indexed`; the model does not follow PIL's ADAPTIVE conversion (line 378) or the palette-mode passthrough (lines 380-381). Its properties are stated by `Pipeline.MulticolorRoundTrip` and `Pipeline.IndexedRoundTrip`. |
| Pipeline.Generate | multicolor.py:446-455 | Without `-m rle` (`--mode`) the output is raw. With it, any output is run-length. |
| Pipeline.MulticolorRoundTrip | multicolor.py:368-374 | For a multicolor plan, well-formed quantized lines and a palette stream that is not empty (a border, or some row with palette bytes), run-length output exists. Reading its pixels back gives every pixel's index plus the border offset, as bytes. |
| Pipeline.IndexedRoundTrip | multicolor.py:375-385 | For a rectangular image of at most 16 colours, with or without `-b`, the plan is indexed and equals the plan built without a border, since the indexed branch never reads `borderHex` (lines 160-176, 336-363). The pixel stream has one digit per pixel. Run-length output exists and reads back to each pixel's slot in the image's own palette. |
| Pipeline.NegativeBorderRejected | multicolor.py:161-166 | A palette stream that starts with the border hex of a negative `-b` component makes the one-digit encoder fail with a bad digit, whatever follows. |
| Pipeline.IndexedPaletteHex | multicolor.py:338-348 | The indexed palette is hexadecimal whatever the image palette, so the one-digit encoder accepts it. |
| Hex.Format | multicolor.py:320 | `'%0*x' % (w, v)` is lower-case hex of value `v` and at least `w` characters long. It is exactly `w` characters when `v < 16^w` and longer otherwise. |
| Hex.ParseFormatAll | multicolor.py:320-321 | Values that fit `w` digits, formatted and concatenated, parse back in `w`-character chunks to the same values. |
| Hex.ParseFixedDefined | multicolor.py:394 | Chunked parsing succeeds exactly on text that is all hex and a whole number of chunks long. |

## Left out

- Command-line parsing, the config and ini files, printing, showing the image, template reading and the output file: these are I/O around the core.
- `ext_conv` and temp-file cleanup: they are external programs and file I/O. `Reducer.Quantizer` is a parameter standing for either quantizer.
- PIL itself: `getcolors`, the ADAPTIVE quantizer, `crop`, `paste` and `getpalette`.
  - Rows are sequences of RGB triples, and colour counts are set sizes.
  - The final per-line ADAPTIVE pass of `get_multicolor` is taken as input (`Serialize.QuantizedLine`).
  - The assumption that the quantizer keeps a row's width and stays within budget is stated as `Reducer.Quantizes` and used only where a contract names it.
- `Reindex.Palettize` assumes a lossless re-indexing: every pixel keeps its exact colour, and the palette is ordered by first appearance, row-major. The program calls PIL's ADAPTIVE conversion instead, which promises neither; the program itself warns that results may vary. `Pipeline.IndexedRoundTrip` holds for the program only as far as that conversion is lossless.
- `Reindex.Palettize` does not model PIL's conversion of images that are already in palette mode. For those the source keeps the raw indices; see the findings.
- `RleCodec.Rle16`: reads each character as an ASCII hex digit only. Python's `int(c, 16)` also accepts a single non-ASCII decimal digit, such as `٣`, where the model reports a bad digit. The serializers never produce one.
- `RleCodec.Rle31`: reads each pair as two ASCII hex digits only. Python's `int(pair, 16)` also accepts a leading sign, surrounding whitespace and non-ASCII decimal digits: `-1` gives -1 and so the letter `@`, and ` 5` and `+5` give 5. The model reports a bad digit for such pairs. The pixel stream the serializers write holds only lower-case ASCII hex, so it never contains one.
- `Serialize.MulticolorPalette`: assumes every row's `getpalette()` holds at least `3 * workRange` bytes (`Serialize.FullPalettes`). The source only takes `rawPalette[:rgbEntries]` and checks nothing. With a shorter palette that row's segment is shorter, as `Serialize.PaletteRow` states, and every later segment starts earlier than this member says.
- `Pipeline.MulticolorRoundTrip`: does not assume full palettes. It states that the palette stream can be encoded and that the pixels read back, and nothing about where each row's palette segment starts. It needs a border or some palette byte, because an empty palette stream makes `encode_rle16` raise.
- `Rle.EncodeEndsInDigit`: Python's `str.isdigit` is modelled only on the characters the encoder can produce (code points below U+0141). Those are the ASCII digits and U+00B2, U+00B3 and U+00B9. In the two-digit encoder these are the letters of pair values 113, 114 and 120. Such pixel values never arise from a 31-colour plan, and a trailing one of them gets no `0` appended.
- `RleCodec.Compress`: requires `digits` to be 1 or 2, the only values the program sets.
- `Pipeline.Generate`: it only states the output form. The round trips of the two modes are stated by `Pipeline.MulticolorRoundTrip` and `Pipeline.IndexedRoundTrip`.
- The TIC-80 decoder is not part of this model. `Rle.Decode` is a reference reading of the token format: a letter, optionally followed by a count.

## Findings

| source | as written | input that shows it | evidently intended | confidence | as-written member | corrected member |
|---|---|---|---|---|---|---|
| multicolor.py:161-166 | each `-b` component is formatted with `'%0*x' % (2, c)` without a range check | `-b 300 0 0` gives `12c0000`, seven characters, which shifts every later palette byte | components limited to 0..255, so the border entry is always six hex digits | high, not executed | Frame.OversizedBorderComponent | Frame.BorderHex |
| multicolor.py:161-166 | a negative `-b` component, which argparse's `type=int` accepts, is formatted with its sign | `-b -1 0 0` gives `-10000`: raw output writes a `-` into the palette string, and `-m rle` raises in `encode_rle16` | components limited to 0..255, so the border entry is always six hex digits | high, not executed | Frame.NegativeBorderComponent | Frame.BorderHex |
| multicolor.py:377-381 | a palette-mode image of at most 16 colours keeps its raw palette indices, and each is written as `'%0*x' % (1, i)` | an image whose colours sit at palette index 16 or above: `IndexedPixels([[16]])` is `10`, two characters for one pixel | every image re-indexed to slots 0..15, with those 16 colours written to the palette | medium, not executed | Serialize.WideIndexOverflows | Reindex.Palettize |

=== FILE: frame.dfy ===
/** The frame assembler: the mode, per-line budget, digit width and size
    decisions `multicolor.py` takes before any row is converted. */
module Frame {
  import opened Wrappers
  import opened Hex
  import opened Picture

  /** TIC-80 screen size: larger images are refused. */
  const MaxWidth: nat := 240
  const MaxHeight: nat := 136

  /** Images with at most this many colours use the indexed mode. */
  const IndexedColors: nat := 16

  /** The `-r` option: colours per line, 16 or 31. */
  datatype Range = Range16 | Range31 {
    function Colors(): nat {
      if Range16? then 16 else 31
    }
  }

  datatype Mode = Indexed | Multicolor

  /** Everything later stages read from the global settings. `workRange` is
      the number of palette slots the quantizer may fill per line; `digits`
      is the hex width of one pixel value; `border` is the colour reserved as
      slot 0 of every line, if any. */
  datatype Plan = Plan(mode: Mode, workRange: nat, digits: nat, border: Option<Rgb>)

  datatype DimensionError = TooWide | TooHigh

  /** `palOffset`: how far the border slot shifts every quantizer index. */
  function Offset(border: Option<Rgb>): nat {
    if border.Some? then 1 else 0
  }

  /** The plan's pixel alphabet: quantizer indices plus the border shift in
      multicolor mode, the 16 slots of the global palette in indexed mode. */
  function Alphabet(plan: Plan): nat {
    if plan.mode == Multicolor then plan.workRange + Offset(plan.border) else IndexedColors
  }

  /** Decides mode, budget and digit width from the requested range, the
      optional border colour and the image's colour count, then refuses
      images larger than the screen (width checked first). */
  function MakePlan(range: Range, border: Option<Rgb>, colorCount: nat, width: nat, height: nat)
    : (r: Result<Plan, DimensionError>)
    ensures r.Failure? <==> width > MaxWidth || height > MaxHeight
    ensures r.Failure? ==> (r.error == TooWide <==> width > MaxWidth)
    ensures r.Success? ==> (r.value.mode == Multicolor <==> colorCount > IndexedColors)
    ensures r.Success? ==> r.value.digits in {1, 2}
    ensures r.Success? ==> (r.value.digits == 2 <==> r.value.mode == Multicolor && range.Colors() > 16)
    ensures r.Success? && r.value.mode == Multicolor ==>
              r.value.border == border && r.value.workRange + Offset(border) == range.Colors()
    ensures r.Success? && r.value.mode == Indexed ==> r.value.border == None
    ensures r.Success? ==> 1 <= Alphabet(r.value) <= Pow16(r.value.digits)
  {
    var digits := if range.Colors() > 16 then 2 else 1;
    var plan :=
      if colorCount > IndexedColors then
        Plan(Multicolor, if border.Some? then range.Colors() - 1 else range.Colors(), digits, border)
      else
        Plan(Indexed, range.Colors(), 1, None);
    if width > MaxWidth then Failure(TooWide)
    else if height > MaxHeight then Failure(TooHigh)
    else Success(plan)
  }

  /** `borderHex`: the border colour as six hex digits. */
  function BorderHex(c: Rgb): (s: string)
    ensures |s| == 6
    ensures ParseFixed(s, 2) == Some(RgbBytes(c))
  {
    Bytes(RgbBytes(c))
  }

  /** `borderHex` as the source builds it, from the three integers of `-b`,
      which nothing checks against 0..255: argparse accepts any `int`, and a
      negative one is formatted with its sign. */
  function BorderHexAsWritten(r: int, g: int, b: int): (s: string)
    ensures 0 <= r < 256 && 0 <= g < 256 && 0 <= b < 256 ==> s == BorderHex(Rgb(r, g, b))
    ensures |s| >= 6
    ensures r >= 256 || g >= 256 || b >= 256 ==> |s| > 6
    ensures r < 0 || g < 0 || b < 0 ==> !AllHex(s)
  {
    var fr, fg, fb := FormatSigned(r, 2), FormatSigned(g, 2), FormatSigned(b, 2);
    assert Pow16(2) == 256;
    assert 0 <= r < 256 && 0 <= g < 256 && 0 <= b < 256 ==> fr + fg + fb == BorderHex(Rgb(r, g, b)) by {
      if 0 <= r < 256 && 0 <= g < 256 && 0 <= b < 256 {
        FormatTriple(r, g, b);
      }
    }
    NotHexConcat(fr, fg);
    NotHexConcat(fr + fg, fb);
    fr + fg + fb
  }

  lemma FormatTriple(r: byte, g: byte, b: byte)
    ensures BorderHex(Rgb(r, g, b)) == Format(r, 2) + Format(g, 2) + Format(b, 2)
  {
    var bs := RgbBytes(Rgb(r, g, b));
    assert bs[1..] == [g, b] && bs[1..][1..] == [b];
    assert FormatAll([b], 2) == Format(b, 2) + FormatAll([], 2);
    assert FormatAll([g, b], 2) == Format(g, 2) + FormatAll([b], 2);
    assert FormatAll(bs, 2) == Format(r, 2) + FormatAll([g, b], 2);
  }

  /** `-b 300 0 0` gives a seven-character border entry, which shifts every
      later byte of the palette stream. */
  lemma OversizedBorderComponent()
    ensures BorderHexAsWritten(300, 0, 0) == "12c0000"
  {
    NumeralOf300();
    assert Format(300, 2) == "12c";
    assert Format(0, 2) == "00" by {
      assert Numeral(0) == "0";
    }
  }

  /** `-b -1 0 0` gives `-10000`: not hex, so the palette stream it starts
      cannot be run-length encoded. */
  lemma NegativeBorderComponent()
    ensures BorderHexAsWritten(-1, 0, 0) == "-10000"
    ensures !AllHex(BorderHexAsWritten(-1, 0, 0))
  {
    assert FormatSigned(-1, 2) == "-1" by {
      assert Numeral(1) == "1";
    }
    assert FormatSigned(0, 2) == "00" by {
      assert Numeral(0) == "0";
    }
  }

  lemma NumeralOf300()
    ensures Numeral(300) == "12c"
  {
    assert Numeral(18) == "12" by {
      assert Numeral(18) == Numeral(1) + [DigitChar(2)];
    }
    assert Numeral(300) == Numeral(18) + [DigitChar(12)];
  }
}

=== FILE: hex.dfy ===
/** Hexadecimal text as the converter writes and reads it: Python's
    `'%0*x' % (width, v)` formatting and `int(text, 16)` parsing. */
module Hex {
  import opened Wrappers
  import opened Seqs

  type byte = b: nat | b < 256

  function Pow16(n: nat): (p: nat)
    ensures p >= 1
  {
    if n == 0 then 1 else 16 * Pow16(n - 1)
  }

  /** The characters `int(c, 16)` accepts as one ASCII digit. */
  predicate IsHexDigit(c: char) {
    '0' <= c <= '9' || 'a' <= c <= 'f' || 'A' <= c <= 'F'
  }

  /** The characters `'%x'` produces. */
  predicate IsLowerHex(c: char) {
    '0' <= c <= '9' || 'a' <= c <= 'f'
  }

  predicate AllHex(s: string) {
    forall i :: 0 <= i < |s| ==> IsHexDigit(s[i])
  }

  predicate AllLowerHex(s: string)
    ensures AllLowerHex(s) ==> AllHex(s)
  {
    forall i :: 0 <= i < |s| ==> IsLowerHex(s[i])
  }

  function DigitValue(c: char): (d: nat)
    requires IsHexDigit(c)
    ensures d < 16
  {
    if '0' <= c <= '9' then c as int - '0' as int
    else if 'a' <= c <= 'f' then c as int - 'a' as int + 10
    else c as int - 'A' as int + 10
  }

  function DigitChar(d: nat): (c: char)
    requires d < 16
    ensures IsLowerHex(c)
    ensures DigitValue(c) == d
  {
    if d < 10 then ('0' as int + d) as char else ('a' as int + d - 10) as char
  }

  /** The value of a string of hex digits, most significant first. */
  function Value(s: string): nat
    requires AllHex(s)
  {
    if s == [] then 0 else Value(s[..|s| - 1]) * 16 + DigitValue(s[|s| - 1])
  }

  /** The shortest hex numeral of `v` (`'%x' % v`). */
  function Numeral(v: nat): (s: string)
    ensures |s| >= 1
    ensures AllLowerHex(s)
    ensures Value(s) == v
  {
    if v < 16 then [DigitChar(v)]
    else
      var s := Numeral(v / 16) + [DigitChar(v % 16)];
      assert s[..|s| - 1] == Numeral(v / 16);
      s
  }

  lemma {:induction false} NumeralFits(v: nat, width: nat)
    requires 1 <= width && v < Pow16(width)
    ensures |Numeral(v)| <= width
  {
    if v >= 16 {
      assert width >= 2;
      assert v / 16 < Pow16(width - 1);
      NumeralFits(v / 16, width - 1);
    }
  }

  lemma {:induction false} LeadingZeros(n: nat, t: string)
    requires AllHex(t)
    ensures AllHex(Repeat0(n) + t)
    ensures Value(Repeat0(n) + t) == Value(t)
  {
    var s := Repeat0(n) + t;
    if t == [] {
      assert s == Repeat0(n);
      ZerosValue(n);
    } else {
      assert s[..|s| - 1] == Repeat0(n) + t[..|t| - 1];
      LeadingZeros(n, t[..|t| - 1]);
    }
  }

  lemma {:induction false} ZerosValue(n: nat)
    ensures Value(Repeat0(n)) == 0
  {
    if n > 0 {
      assert Repeat0(n)[..n - 1] == Repeat0(n - 1);
      ZerosValue(n - 1);
    }
  }

  function Repeat0(n: nat): (s: string)
    ensures |s| == n && forall i :: 0 <= i < n ==> s[i] == '0'
  {
    seq(n, _ => '0')
  }

  /** `'%0*x' % (width, v)`: the numeral of `v`, left-padded with zeros to at
      least `width` characters; wider values keep all their digits. */
  function Format(v: nat, width: nat): (s: string)
    ensures |s| >= width && |s| >= 1
    ensures AllLowerHex(s)
    ensures Value(s) == v
    ensures 1 <= width && v < Pow16(width) ==> |s| == width
    ensures v >= Pow16(width) ==> |s| > width
  {
    var d := Numeral(v);
    NumeralWidth(v, width);
    if |d| < width then LeadingZeros(width - |d|, d); Repeat0(width - |d|) + d else d
  }

  /** `'%0*x' % (width, v)` for any integer: a negative value is written as
      `-` followed by the digits of its magnitude, and the sign counts
      towards the width, so the zeros pad the magnitude to `width - 1`. */
  function FormatSigned(v: int, width: nat): (s: string)
    ensures |s| >= width && |s| >= 1
    ensures v >= 0 ==> AllLowerHex(s) && Value(s) == v
    ensures v >= 0 && 1 <= width && v < Pow16(width) ==> |s| == width
    ensures v >= Pow16(width) ==> |s| > width
    ensures v < 0 ==> |s| >= 2 && s[0] == '-' && !AllHex(s)
    ensures v < 0 ==> AllLowerHex(s[1..]) && Value(s[1..]) == -v
  {
    if v >= 0 then Format(v, width)
    else
      var s := "-" + Format(-v, if width >= 1 then width - 1 else 0);
      assert s[1..] == Format(-v, if width >= 1 then width - 1 else 0);
      assert !IsHexDigit(s[0]);
      s
  }

  lemma NotHexConcat(a: string, b: string)
    ensures !AllHex(a) || !AllHex(b) ==> !AllHex(a + b)
  {
    if !AllHex(a) {
      var i :| 0 <= i < |a| && !IsHexDigit(a[i]);
      assert (a + b)[i] == a[i];
    } else if !AllHex(b) {
      var i :| 0 <= i < |b| && !IsHexDigit(b[i]);
      assert (a + b)[|a| + i] == b[i];
    }
  }

  lemma NumeralWidth(v: nat, width: nat)
    ensures 1 <= width && v < Pow16(width) ==> |Numeral(v)| <= width
    ensures v >= Pow16(width) ==> |Numeral(v)| > width
  {
    if 1 <= width && v < Pow16(width) {
      NumeralFits(v, width);
    }
    if v >= Pow16(width) {
      NumeralExceeds(v, width);
    }
  }

  lemma {:induction false} NumeralExceeds(v: nat, width: nat)
    requires v >= Pow16(width)
    ensures |Numeral(v)| > width
  {
    if width > 0 {
      assert v >= 16;
      assert v / 16 >= Pow16(width - 1);
      NumeralExceeds(v / 16, width - 1);
    }
  }

  /** Every value formatted with the same minimum width, concatenated. */
  function FormatAll(vs: seq<nat>, width: nat): (s: string)
    ensures AllLowerHex(s)
  {
    if vs == [] then [] else Format(vs[0], width) + FormatAll(vs[1..], width)
  }

  predicate Fit(vs: seq<nat>, width: nat) {
    forall i :: 0 <= i < |vs| ==> vs[i] < Pow16(width)
  }

  /** With every value below `16^width`, each one takes exactly `width` characters. */
  lemma {:induction false} FormatAllLength(vs: seq<nat>, width: nat)
    requires 1 <= width && Fit(vs, width)
    ensures |FormatAll(vs, width)| == |vs| * width
  {
    if vs != [] {
      var rest := vs[1..];
      assert Fit(rest, width);
      FormatAllLength(rest, width);
      var f := Format(vs[0], width);
      assert |f| == width;
      assert FormatAll(vs, width) == f + FormatAll(rest, width);
      assert |FormatAll(vs, width)| == width + |rest| * width;
      MulSucc(|rest|, width);
    }
  }

  lemma ModShift(n: nat, w: nat)
    requires w >= 1
    ensures (n + w) % w == n % w
  {
    var q, r := n / w, n % w;
    var q2, r2 := (n + w) / w, (n + w) % w;
    var d := q2 - q - 1;
    assert d * w == r - r2 by {
      assert q2 * w + r2 == q * w + r + w;
    }
    if d > 0 {
      MulAtLeast(d, w);
    } else if d < 0 {
      MulAtLeast(-d, w);
    }
  }

  lemma MulAtLeast(d: int, w: int)
    requires d >= 1 && w >= 1
    ensures d * w >= w
  {
  }

  lemma {:induction false} FormatAllAppend(a: seq<nat>, b: seq<nat>, width: nat)
    ensures FormatAll(a + b, width) == FormatAll(a, width) + FormatAll(b, width)
  {
    if a != [] {
      var head := Format(a[0], width);
      assert FormatAll(a + b, width) == head + FormatAll(a[1..] + b, width) by {
        assert (a + b)[0] == a[0];
        assert (a + b)[1..] == a[1..] + b;
      }
      FormatAllAppend(a[1..], b, width);
      Assoc(head, FormatAll(a[1..], width), FormatAll(b, width));
    } else {
      assert a + b == b;
    }
  }

  lemma MulSucc(a: nat, w: nat)
    ensures (a + 1) * w == w + a * w
  {
  }

  /** Reads `s` as consecutive `width`-character hex numbers; fails when a
      chunk holds a non-hex character or the last chunk is short. */
  function ParseFixed(s: string, width: nat): (r: Option<seq<nat>>)
    requires width >= 1
    ensures r.Some? ==> Fit(r.value, width)
    decreases |s|
  {
    if s == [] then Some([])
    else if |s| < width || !AllHex(s[..width]) then None
    else
      match ParseFixed(s[width..], width)
      case None => None
      case Some(rest) =>
        ValueBound(s[..width]);
        Some([Value(s[..width])] + rest)
  }

  /** Parsing succeeds exactly on whole chunks of hex digits. */
  lemma {:induction false} ParseFixedDefined(s: string, width: nat)
    requires width >= 1
    ensures ParseFixed(s, width).Some? <==> |s| % width == 0 && AllHex(s)
    decreases |s|
  {
    if s != [] {
      if |s| < width {
        ModSmall(|s|, width);
      } else {
        HexSplit(s, width);
        ParseFixedDefined(s[width..], width);
        ModShift(|s[width..]|, width);
      }
    }
  }

  lemma ModSmall(n: nat, w: nat)
    requires 0 < n < w
    ensures n % w == n
  {
  }

  /** A text is hex exactly when both its parts are. */
  lemma HexSplit(s: string, k: nat)
    requires k <= |s|
    ensures AllHex(s) <==> AllHex(s[..k]) && AllHex(s[k..])
  {
    if AllHex(s[..k]) && AllHex(s[k..]) {
      forall i | 0 <= i < |s| ensures IsHexDigit(s[i]) {
        if i >= k {
          assert s[i] == s[k..][i - k];
        } else {
          assert s[i] == s[..k][i];
        }
      }
    }
  }

  /** A successful parse yields one value per `width` characters. */
  lemma {:induction false} ParseFixedLength(s: string, width: nat)
    requires width >= 1 && ParseFixed(s, width).Some?
    ensures |ParseFixed(s, width).value| * width == |s|
    decreases |s|
  {
    if s != [] {
      ParseFixedLength(s[width..], width);
      MulSucc(|ParseFixed(s[width..], width).value|, width);
    }
  }

  lemma {:induction false} ValueBound(s: string)
    requires AllHex(s)
    ensures Value(s) < Pow16(|s|)
  {
    if s != [] {
      ValueBound(s[..|s| - 1]);
    }
  }

  /** Formatting then parsing with the same width gives the values back,
      provided each fits in `width` digits. */
  lemma {:induction false} ParseFormatAll(vs: seq<nat>, width: nat)
    requires width >= 1
    requires Fit(vs, width)
    ensures ParseFixed(FormatAll(vs, width), width) == Some(vs)
  {
    if vs != [] {
      var rest := vs[1..];
      assert Fit(rest, width);
      ParseFormatAll(rest, width);
      var f := Format(vs[0], width);
      assert |f| == width;
      var s := f + FormatAll(rest, width);
      assert FormatAll(vs, width) == s;
      assert s[..width] == f;
      assert s[width..] == FormatAll(rest, width);
      assert AllHex(f) && Value(f) == vs[0];
      assert [vs[0]] + rest == vs;
    }
  }

  /** Each byte as two lower-case hex digits (`'%0*x' % (2, b)`), concatenated. */
  function Bytes(bs: seq<byte>): (s: string)
    ensures |s| == 2 * |bs|
    ensures ParseFixed(s, 2) == Some(bs)
  {
    assert Fit(bs, 2);
    ParseFormatAll(bs, 2);
    FormatAllLength(bs, 2);
    FormatAll(bs, 2)
  }

  lemma BytesAppend(a: seq<byte>, b: seq<byte>)
    ensures Bytes(a + b) == Bytes(a) + Bytes(b)
  {
    FormatAllAppend(a, b, 2);
  }

  /** The characters of bytes `k` to `m` are the text of those bytes. */
  lemma BytesSlice(bs: seq<byte>, k: nat, m: nat)
    requires k <= m <= |bs|
    ensures Bytes(bs)[2 * k .. 2 * m] == Bytes(bs[k..m])
  {
    var front, middle, back := bs[..k], bs[k..m], bs[m..];
    assert bs == front + (middle + back);
    BytesAppend(front, middle + back);
    BytesAppend(middle, back);
    SliceMiddle(Bytes(front), Bytes(middle), Bytes(back));
  }
}

=== FILE: picture.dfy ===
/** The image data the converter works on: 24-bit colours and rows of them. */
module Picture {
  import opened Hex

  datatype Rgb = Rgb(r: byte, g: byte, b: byte)

  /** One horizontal line of an image, left to right. */
  type Row = seq<Rgb>

  /** The colour `Image.new("RGB", size)` fills a fresh image with. */
  const Black := Rgb(0, 0, 0)

  /** The distinct colours of a row, what PIL's `getcolors` lists. */
  function Colors(row: Row): set<Rgb> {
    set c | c in row
  }

  function ColorCount(row: Row): nat {
    |Colors(row)|
  }

  /** The three palette bytes of a colour, in R, G, B order. */
  function RgbBytes(c: Rgb): seq<byte> {
    [c.r, c.g, c.b]
  }
}

=== FILE: pipeline.dfy ===
/** The whole text-encoding path: the plan picks the serializer, the
    serializer produces the hex streams, and the streams are written raw or
    run-length encoded. */
module Pipeline {
  import opened Wrappers
  import opened Seqs
  import opened Hex
  import opened Picture
  import opened Frame
  import opened Serialize
  import opened Reindex
  import opened Rle
  import opened RleCodec

  /** The hex streams of an image: `get_multicolor` on the quantized lines in
      multicolor mode, `get_indexed` on the re-indexed image otherwise. */
  function StreamsOf(plan: Plan, lines: seq<QuantizedLine>, image: seq<Row>): Streams {
    if plan.mode == Multicolor then MulticolorStreams(plan, lines)
    else IndexedStreams(Palettize(image))
  }

  /** The output the program writes into its template. */
  function Generate(plan: Plan, lines: seq<QuantizedLine>, image: seq<Row>, rle: bool): (r: Result<Output, RleError>)
    requires plan.digits == 1 || plan.digits == 2
    ensures !rle ==> r.Success? && r.value.RawOutput?
    ensures rle && r.Success? ==> r.value.RleOutput?
  {
    var streams := StreamsOf(plan, lines, image);
    Compress(plan.digits, rle, streams.palette, streams.pixels)
  }

  lemma {:induction false} ConcatHex(parts: seq<string>)
    requires forall i :: 0 <= i < |parts| ==> AllHex(parts[i])
    ensures AllHex(Concat(parts))
  {
    if parts != [] {
      ConcatHex(parts[1..]);
      assert Concat(parts) == parts[0] + Concat(parts[1..]);
    }
  }

  /** Text that parses as fixed-width hex is hex, a whole number of values long. */
  lemma ParsedIsHex(s: string, width: nat)
    requires width >= 1 && ParseFixed(s, width).Some?
    ensures AllHex(s) && |s| % width == 0
  {
    ParseFixedDefined(s, width);
  }

  /** Swapping the digits of every byte keeps a text hexadecimal. */
  lemma SwapPairsHex(s: string)
    requires AllHex(s)
    ensures AllHex(SwapPairs(s))
  {
    var r := SwapPairs(s);
    forall i | 0 <= i < |r| ensures IsHexDigit(r[i]) {
      assert r[i] == s[PairPartner(i, |s|)];
    }
  }

  lemma AppendHex(a: string, b: string)
    requires AllHex(a) && AllHex(b)
    ensures AllHex(a + b)
  {
    forall i | 0 <= i < |a + b| ensures IsHexDigit((a + b)[i]) {
      if i >= |a| {
        assert (a + b)[i] == b[i - |a|];
      }
    }
  }

  /** Two consecutive rows of the default palette are hex. */
  lemma RowsHex(k: nat)
    requires k == 0 || k == 2
    ensures AllHex(Sweetie16Rows[k]) && AllHex(Sweetie16Rows[k + 1])
  {
    if k == 0 {
      assert AllHex(Sweetie16Rows[0]);
      assert AllHex(Sweetie16Rows[1]);
    } else {
      assert AllHex(Sweetie16Rows[2]);
      assert AllHex(Sweetie16Rows[3]);
    }
  }

  /** The default palette is hex. */
  lemma Sweetie16Hex()
    ensures AllHex(Sweetie16)
  {
    RowsHex(0);
    RowsHex(2);
    AppendHex(Sweetie16Rows[0], Sweetie16Rows[1]);
    AppendHex(Sweetie16Rows[0] + Sweetie16Rows[1], Sweetie16Rows[2]);
    AppendHex(Sweetie16Rows[0] + Sweetie16Rows[1] + Sweetie16Rows[2], Sweetie16Rows[3]);
  }

  /** The indexed palette is always 96 hex digits. */
  lemma IndexedPaletteHex(imagePalette: seq<byte>)
    ensures AllHex(IndexedPalette(imagePalette))
  {
    var k := Min(|imagePalette|, PaletteBytes);
    var r := IndexedPalette(imagePalette);
    Sweetie16Hex();
    PaddedHex(Bytes(imagePalette[..k]), Sweetie16);
    SwapPairsHex(Bytes(imagePalette[..k]) + Sweetie16[2 * k..]);
    SwapPairsInvolution(r);
  }

  /** Image bytes followed by the rest of a hex default palette are hex. */
  lemma PaddedHex(pal: string, default: string)
    requires |pal| <= |default| && ParseFixed(pal, 2).Some? && AllHex(default)
    ensures AllHex(pal + default[|pal|..])
  {
    ParsedIsHex(pal, 2);
    HexSplit(default, |pal|);
    AppendHex(pal, default[|pal|..]);
  }

  /** The multicolor palette stream is non-empty hex, so the one-digit
      encoder accepts it. */
  lemma MulticolorPaletteEncodable(plan: Plan, lines: seq<QuantizedLine>)
    requires plan.workRange >= 1
    requires SomePalette(lines, plan.border)
    ensures Rle16(MulticolorStreams(plan, lines).palette).Success?
  {
    var parts := PaletteRows(lines, plan.workRange, plan.border);
    forall i | 0 <= i < |parts| ensures AllHex(parts[i]) {
      ParsedIsHex(parts[i], 2);
    }
    ConcatHex(parts);
    PaletteNonEmpty(plan, lines);
  }

  lemma PaletteNonEmpty(plan: Plan, lines: seq<QuantizedLine>)
    requires plan.workRange >= 1
    requires SomePalette(lines, plan.border)
    ensures |MulticolorStreams(plan, lines).palette| > 0
  {
    var parts := PaletteRows(lines, plan.workRange, plan.border);
    if plan.border.Some? && |lines| >= 1 {
      ConcatLengthAtLeast(parts, 0);
    } else {
      var y :| 0 <= y < |lines| && |lines[y].palette| > 0;
      ConcatLengthAtLeast(parts, y);
    }
  }

  /** A negative `-b` component puts a `-` into the palette stream, which
      the one-digit encoder rejects whatever follows it. */
  lemma NegativeBorderRejected(r: int, g: int, b: int, rest: string)
    requires r < 0 || g < 0 || b < 0
    ensures Rle16(BorderHexAsWritten(r, g, b) + rest) == Failure(BadDigit)
  {
    NotHexConcat(BorderHexAsWritten(r, g, b), rest);
  }

  lemma ProductAtLeast(a: nat, b: nat, c: nat)
    requires a >= 1 && b >= 1
    ensures a * b * c >= c
  {
    MulAtLeast(a, b);
    if c >= 1 {
      MulAtLeast(a * b, c);
    }
  }

  /** The multicolor pixel stream is non-empty hex whose values, as the
      encoder for the plan's digit width reads them, are the shifted
      indices. */
  lemma MulticolorPixelsEncodable(plan: Plan, lines: seq<QuantizedLine>, width: nat)
    requires plan.mode == Multicolor && Consistent(plan) && (plan.digits == 1 || plan.digits == 2)
    requires width >= 1 && |lines| >= 1
    requires WellFormedLines(lines, width, plan.workRange)
    ensures var pixels := MulticolorStreams(plan, lines).pixels;
            (if plan.digits == 1 then Rle16(pixels) else Rle31(pixels)).Success?
            && PixelValues(plan.digits, pixels) == Some(Shift(Concat<nat>(IndexRows(lines)), Offset(plan.border)))
  {
    var pixels := MulticolorStreams(plan, lines).pixels;
    MulticolorPixels(plan, lines, width);
    ParsedIsHex(pixels, plan.digits);
    ProductAtLeast(|lines|, width, plan.digits);
    if plan.digits == 2 {
      assert PairText(pixels) == pixels;
    }
  }

  /** End to end in multicolor mode: for a plan the program makes from an
      image of more than 16 colours, whose quantized lines are `width` pixels
      with in-budget indices and some palette text, run-length output exists,
      and reading its pixels back gives every pixel's palette index plus
      the border offset, row by row. */
  lemma MulticolorRoundTrip(range: Range, border: Option<Rgb>, colorCount: nat, width: nat,
                            lines: seq<QuantizedLine>, image: seq<Row>)
    requires MakePlan(range, border, colorCount, width, |lines|).Success?
    requires colorCount > IndexedColors && width >= 1 && |lines| >= 1
    requires var plan := MakePlan(range, border, colorCount, width, |lines|).value;
             WellFormedLines(lines, width, plan.workRange)
    requires SomePalette(lines, border)
    ensures var plan := MakePlan(range, border, colorCount, width, |lines|).value;
            var out := Generate(plan, lines, image, true);
            var shifted := Shift(Concat<nat>(IndexRows(lines)), Offset(border));
            out.Success?
            && Fit(shifted, 2)
            && ReadPixels(plan.digits, out.value.pixels) == Some(ToBytes(shifted))
  {
    var plan := MakePlan(range, border, colorCount, width, |lines|).value;
    var streams := MulticolorStreams(plan, lines);
    assert plan.workRange >= 1 by {
      assert lines[0].indices[0] < plan.workRange;
    }
    MulticolorPaletteEncodable(plan, lines);
    MulticolorPixelsEncodable(plan, lines, width);
    CompressRoundTrip(plan.digits, streams.palette, streams.pixels);
  }

  /** End to end in indexed mode: for a rectangular image of at most 16
      colours, with or without `-b`, run-length output exists, its pixel
      stream has one digit per pixel, and reading it back gives, row by row,
      each pixel's slot in the image's own palette, which holds that pixel's
      colour. A border colour is ignored: the plan is the one built without
      it. */
  lemma IndexedRoundTrip(range: Range, border: Option<Rgb>, width: nat, image: seq<Row>)
    requires |image| >= 1 && width >= 1
    requires forall y :: 0 <= y < |image| ==> |image[y]| == width
    requires MakePlan(range, border, |ImageColors(image)|, width, |image|).Success?
    requires |ImageColors(image)| <= IndexedColors
    ensures var plan := MakePlan(range, border, |ImageColors(image)|, width, |image|).value;
            var p := Palettize(image);
            var out := Generate(plan, [], image, true);
            plan.mode == Indexed
            && plan == MakePlan(range, None, |ImageColors(image)|, width, |image|).value
            && |IndexedStreams(p).pixels| == |image| * width
            && Fit(Concat<nat>(p.pixels), 2)
            && out.Success?
            && Decode(out.value.pixels) == Some(ToBytes(Concat<nat>(p.pixels)))
  {
    var plan := MakePlan(range, border, |ImageColors(image)|, width, |image|).value;
    assert plan == MakePlan(range, None, |ImageColors(image)|, width, |image|).value;
    var p := Palettize(image);
    ConcatRectangle(p.pixels, width, |ImageColors(image)|);
    var flat := Concat<nat>(p.pixels);
    assert Fit(flat, 1) by {
      forall i | 0 <= i < |flat| ensures flat[i] < Pow16(1) {
        assert flat[i] in flat;
      }
    }
    var streams := IndexedStreams(p);
    ParsedIsHex(streams.pixels, 1);
    IndexedPaletteHex(p.palette);
    MulAtLeast(|image|, width);
    CompressRoundTrip(1, streams.palette, streams.pixels);
    FitWider(flat);
  }
}

=== FILE: reducer.dfy ===
/** The scanline reducer (`convert_range`): every row whose colour count
    exceeds the per-line budget goes through the quantizer; the others are
    copied as they are. */
module Reducer {
  import opened Seqs
  import opened Picture

  /** A colour quantizer: the in-process ADAPTIVE palette or the external
      converter, both reached through the same call. Its one assumed promise,
      used only where stated, is `Quantizes` below. */
  type Quantizer = (Row, nat) -> Row

  /** The quantizer keeps the row's width and leaves at most `n` colours. */
  predicate Quantizes(quantize: Quantizer, row: Row, n: nat) {
    |quantize(row, n)| == |row| && ColorCount(quantize(row, n)) <= n
  }

  /** What ends up in row `y` of the converted image. */
  function ReduceRow(row: Row, workRange: nat, quantize: Quantizer): (r: Row)
    ensures ColorCount(row) <= workRange ==> r == row
    ensures ColorCount(row) > workRange ==> r == quantize(row, workRange)
    ensures Quantizes(quantize, row, workRange) ==> |r| == |row| && ColorCount(r) <= workRange
  {
    if ColorCount(row) > workRange then quantize(row, workRange) else row
  }

  /** The `alreadyOk` count: rows that fit the budget without quantization. */
  function WithinBudget(rows: seq<Row>, workRange: nat): (n: nat)
    ensures n <= |rows|
  {
    if rows == [] then 0
    else WithinBudget(rows[..|rows| - 1], workRange) + (if ColorCount(Last(rows)) <= workRange then 1 else 0)
  }

  /** Reducing a reduced row again changes nothing, when the quantizer keeps
      its promise. */
  lemma ReduceRowIdempotent(row: Row, workRange: nat, quantize: Quantizer)
    requires Quantizes(quantize, row, workRange)
    ensures ReduceRow(ReduceRow(row, workRange, quantize), workRange, quantize)
            == ReduceRow(row, workRange, quantize)
  {
  }

  /** `convert_range`: walks the rows top to bottom, pasting either the row
      itself or its quantized version into a fresh black image of the same
      size, and counts both kinds. */
  method ConvertRange(image: seq<Row>, width: nat, workRange: nat, quantize: Quantizer)
    returns (converted: seq<Row>, alreadyOk: nat, toReduce: nat)
    ensures |converted| == |image|
    ensures forall y :: 0 <= y < |image| ==> converted[y] == ReduceRow(image[y], workRange, quantize)
    ensures alreadyOk == WithinBudget(image, workRange)
    ensures alreadyOk + toReduce == |image|
  {
    converted := seq(|image|, _ => Repeat(Black, width));
    alreadyOk, toReduce := 0, 0;
    var offsetY := 0;
    while offsetY < |image|
      invariant 0 <= offsetY <= |image| && |converted| == |image|
      invariant forall y :: 0 <= y < offsetY ==> converted[y] == ReduceRow(image[y], workRange, quantize)
      invariant forall y :: offsetY <= y < |image| ==> converted[y] == Repeat(Black, width)
      invariant alreadyOk == WithinBudget(image[..offsetY], workRange)
      invariant alreadyOk + toReduce == offsetY
    {
      var line := image[offsetY];
      assert image[..offsetY + 1][..offsetY] == image[..offsetY];
      if ColorCount(line) > workRange {
        converted := converted[offsetY := quantize(line, workRange)];
        toReduce := toReduce + 1;
      } else {
        converted := converted[offsetY := line];
        alreadyOk := alreadyOk + 1;
      }
      offsetY := offsetY + 1;
    }
    assert image[..offsetY] == image;
  }
}

=== FILE: reindex.dfy ===
/** Re-indexing an image of at most 16 colours against its own colours, the
    conversion `multicolor.py` applies to non-palette images in indexed mode
    and that palette images need too (see the README's findings): every pixel
    becomes the position of its colour in the list of the image's distinct
    colours, and that list becomes the palette. */
module Reindex {
  import opened Seqs
  import opened Hex
  import opened Picture
  import opened Serialize

  /** The image's distinct colours: what `len(orgColors)` counts. */
  function ImageColors(image: seq<Row>): set<Rgb> {
    set c | c in Concat<Rgb>(image)
  }

  predicate NoDuplicates(cs: seq<Rgb>) {
    forall i, j :: 0 <= i < j < |cs| ==> cs[i] != cs[j]
  }

  /** The distinct colours of `px` in order of first appearance. */
  function Distinct(px: seq<Rgb>): (cs: seq<Rgb>)
    ensures NoDuplicates(cs)
    ensures forall c :: c in cs <==> c in px
  {
    if px == [] then []
    else
      var cs := Distinct(px[..|px| - 1]);
      assert px == px[..|px| - 1] + [Last(px)];
      if Last(px) in cs then cs else cs + [Last(px)]
  }

  lemma {:induction false} NoDuplicatesCount(cs: seq<Rgb>)
    requires NoDuplicates(cs)
    ensures |set c | c in cs| == |cs|
  {
    if cs != [] {
      var prefix := cs[..|cs| - 1];
      NoDuplicatesCount(prefix);
      assert (set c | c in cs) == (set c | c in prefix) + {Last(cs)};
      assert Last(cs) !in prefix;
    }
  }

  function IndexOf(cs: seq<Rgb>, c: Rgb): (i: nat)
    requires c in cs
    ensures i < |cs| && cs[i] == c
  {
    if cs[0] == c then 0 else 1 + IndexOf(cs[1..], c)
  }

  /** The palette bytes of a colour list, three per colour. */
  function PaletteOf(cs: seq<Rgb>): (p: seq<byte>)
    ensures |p| == 3 * |cs|
  {
    var parts := seq(|cs|, i requires 0 <= i < |cs| => RgbBytes(cs[i]));
    ConcatUniformLength(parts, 3);
    Concat(parts)
  }

  /** The colour palette slot `i` holds. */
  function ColorAt(palette: seq<byte>, i: nat): Rgb
    requires 3 * i + 3 <= |palette|
  {
    Rgb(palette[3 * i], palette[3 * i + 1], palette[3 * i + 2])
  }

  lemma PaletteOfSlot(cs: seq<Rgb>, i: nat)
    requires i < |cs|
    ensures 3 * i + 3 <= |PaletteOf(cs)|
    ensures ColorAt(PaletteOf(cs), i) == cs[i]
  {
    var parts := seq(|cs|, i requires 0 <= i < |cs| => RgbBytes(cs[i]));
    ConcatUniformPart(parts, 3, i, 3 * i);
    var slot := Concat(parts)[3 * i .. 3 * i + 3];
    assert slot == RgbBytes(cs[i]);
    assert slot[0] == Concat(parts)[3 * i];
  }

  lemma {:induction false} PixelListed(image: seq<Row>, y: nat, x: nat)
    requires y < |image| && x < |image[y]|
    ensures image[y][x] in Concat<Rgb>(image)
  {
    assert Concat<Rgb>(image) == image[0] + Concat<Rgb>(image[1..]);
    if y > 0 {
      PixelListed(image[1..], y - 1, x);
    }
  }

  /** Every pixel replaced by the position of its colour in `cs`. */
  function IndexImage(image: seq<Row>, cs: seq<Rgb>): (pixels: seq<seq<nat>>)
    requires forall y, x :: 0 <= y < |image| && 0 <= x < |image[y]| ==> image[y][x] in cs
    ensures |pixels| == |image|
    ensures forall y :: 0 <= y < |image| ==> |pixels[y]| == |image[y]|
    ensures forall y, x :: 0 <= y < |image| && 0 <= x < |image[y]| ==>
              pixels[y][x] < |cs| && cs[pixels[y][x]] == image[y][x]
  {
    seq(|image|, y requires 0 <= y < |image| =>
      seq(|image[y]|, x requires 0 <= x < |image[y]| => IndexOf(cs, image[y][x])))
  }

  /** The image as palette indices into its own colour list. Every pixel's
      slot holds exactly the pixel's colour, and there are as many slots as
      the image has colours. */
  function Palettize(image: seq<Row>): (p: PaletteImage)
    ensures |p.pixels| == |image|
    ensures forall y :: 0 <= y < |image| ==> |p.pixels[y]| == |image[y]|
    ensures |p.palette| == 3 * |ImageColors(image)|
    ensures forall y, x :: 0 <= y < |image| && 0 <= x < |image[y]| ==>
              p.pixels[y][x] < |ImageColors(image)| && ColorAt(p.palette, p.pixels[y][x]) == image[y][x]
  {
    var cs := Distinct(Concat<Rgb>(image));
    assert (set c | c in cs) == ImageColors(image);
    NoDuplicatesCount(cs);
    forall y, x | 0 <= y < |image| && 0 <= x < |image[y]| ensures image[y][x] in cs {
      PixelListed(image, y, x);
    }
    var pixels := IndexImage(image, cs);
    forall y, x | 0 <= y < |image| && 0 <= x < |image[y]|
      ensures ColorAt(PaletteOf(cs), pixels[y][x]) == image[y][x]
    {
      PaletteOfSlot(cs, pixels[y][x]);
    }
    PaletteImage(pixels, PaletteOf(cs))
  }
}

=== FILE: rle.dfy ===
/** The converter's run-length code (the shared body of `encode_rle16` and
    `encode_rle31`): every value v is written as the letter `chr(v + 65)`; a
    run of one is the letter, a run of two the letter twice, a longer run of
    n the letter followed by the decimal numeral of n - 1; a `0` is appended
    when the text would otherwise not end in a digit. The decoder here is a
    reference decoder for the token format: a letter followed by a numeral d
    stands for d + 1 copies, a letter alone for one. */
module Rle {
  import opened Wrappers
  import opened Seqs
  import opened Hex

  /** `count` consecutive copies of `value`. */
  datatype Run = Run(value: byte, count: nat)

  function Expand(rs: seq<Run>): seq<byte> {
    if rs == [] then [] else Repeat(rs[0].value, rs[0].count) + Expand(rs[1..])
  }

  lemma {:induction false} ExpandAppend(a: seq<Run>, b: seq<Run>)
    ensures Expand(a + b) == Expand(a) + Expand(b)
  {
    if a == [] {
      assert a + b == b;
    } else {
      assert (a + b)[1..] == a[1..] + b;
      ExpandAppend(a[1..], b);
    }
  }

  /** Runs that cannot be merged or split: none empty, neighbours differ. */
  predicate Maximal(rs: seq<Run>) {
    && (forall i :: 0 <= i < |rs| ==> rs[i].count >= 1)
    && (forall i :: 1 <= i < |rs| ==> rs[i - 1].value != rs[i].value)
  }

  /** The runs of `vals`, built left to right as the encoder's loop does: a
      value equal to the current run's extends it, any other value starts a
      new run. */
  function Runs(vals: seq<byte>): seq<Run> {
    if vals == [] then [] else Append(Runs(vals[..|vals| - 1]), Last(vals))
  }

  /** `Runs` splits `vals` into maximal runs that expand back to it, and the
      last run holds the last value. */
  lemma {:induction false} RunsSpec(vals: seq<byte>)
    ensures Maximal(Runs(vals))
    ensures Expand(Runs(vals)) == vals
    ensures Runs(vals) == [] <==> vals == []
    ensures vals != [] ==> Last(Runs(vals)).value == Last(vals)
  {
    if vals != [] {
      var init := vals[..|vals| - 1];
      assert vals == init + [Last(vals)];
      RunsSpec(init);
      Extend(Runs(init), Last(vals));
    }
  }

  /** One more value at the end of the runs `prior`. */
  function Append(prior: seq<Run>, x: byte): seq<Run> {
    if |prior| > 0 && Last(prior).value == x then
      prior[..|prior| - 1] + [Run(x, Last(prior).count + 1)]
    else
      prior + [Run(x, 1)]
  }

  lemma Extend(prior: seq<Run>, x: byte)
    requires Maximal(prior)
    ensures Maximal(Append(prior, x))
    ensures Expand(Append(prior, x)) == Expand(prior) + [x]
    ensures Last(Append(prior, x)).value == x
  {
    if |prior| > 0 && Last(prior).value == x {
      ExtendRun(prior, x);
    } else {
      StartNewRun(prior, x);
    }
  }

  /** A value equal to the last run's lengthens that run by one. */
  lemma ExtendRun(prior: seq<Run>, x: byte)
    requires Maximal(prior) && |prior| > 0 && Last(prior).value == x
    ensures Maximal(Append(prior, x))
    ensures Expand(Append(prior, x)) == Expand(prior) + [x]
  {
    AppendSame(prior, x);
    MaximalReplaceLast(prior, Run(x, Last(prior).count + 1));
    ExpandRun(prior, x);
  }

  lemma ExpandRun(prior: seq<Run>, x: byte)
    requires |prior| > 0 && Last(prior).value == x
    ensures Expand(Append(prior, x)) == Expand(prior) + [x]
  {
    var front := prior[..|prior| - 1];
    var c := Last(prior).count;
    ExpandLast(prior);
    AppendSame(prior, x);
    ExpandSnoc(front, Run(x, c + 1));
    RepeatSnoc(x, c);
    Assoc(Expand(front), Repeat(x, c), [x]);
  }

  lemma ExpandLast(rs: seq<Run>)
    requires |rs| > 0
    ensures Expand(rs) == Expand(rs[..|rs| - 1]) + Repeat(Last(rs).value, Last(rs).count)
  {
    SplitLast(rs);
    ExpandSnoc(rs[..|rs| - 1], Last(rs));
  }

  lemma AppendSame(prior: seq<Run>, x: byte)
    requires |prior| > 0 && Last(prior).value == x
    ensures Append(prior, x) == prior[..|prior| - 1] + [Run(x, Last(prior).count + 1)]
  {
  }

  lemma MaximalReplaceLast(prior: seq<Run>, r: Run)
    requires Maximal(prior) && |prior| > 0 && r.value == Last(prior).value && r.count >= 1
    ensures Maximal(prior[..|prior| - 1] + [r])
  {
    var all := prior[..|prior| - 1] + [r];
    forall i | 0 <= i < |all| ensures all[i].count >= 1 {
      if i < |all| - 1 {
        assert all[i] == prior[i];
      }
    }
    forall i | 1 <= i < |all| ensures all[i - 1].value != all[i].value {
      assert all[i - 1] == prior[i - 1];
      assert all[i].value == prior[i].value by {
        if i < |all| - 1 {
          assert all[i] == prior[i];
        }
      }
    }
  }

  /** Any other value starts a run of one. */
  lemma StartNewRun(prior: seq<Run>, x: byte)
    requires Maximal(prior) && !(|prior| > 0 && Last(prior).value == x)
    ensures Maximal(Append(prior, x))
    ensures Expand(Append(prior, x)) == Expand(prior) + [x]
  {
    MaximalPush(prior, Run(x, 1));
    ExpandSnoc(prior, Run(x, 1));
    assert Repeat(x, 1) == [x];
  }

  lemma MaximalPush(prior: seq<Run>, r: Run)
    requires Maximal(prior) && r.count >= 1 && (|prior| > 0 ==> Last(prior).value != r.value)
    ensures Maximal(prior + [r])
  {
    var all := prior + [r];
    forall i | 0 <= i < |all| ensures all[i].count >= 1 {
      if i < |prior| {
        assert all[i] == prior[i];
      }
    }
    forall i | 1 <= i < |all| ensures all[i - 1].value != all[i].value {
      assert all[i - 1] == prior[i - 1];
      if i < |prior| {
        assert all[i] == prior[i];
      }
    }
  }

  lemma RunsSnoc(init: seq<byte>, x: byte)
    ensures Runs(init + [x]) == Append(Runs(init), x)
  {
    assert (init + [x])[..|init|] == init;
  }

  lemma ExpandSnoc(front: seq<Run>, r: Run)
    ensures Expand(front + [r]) == Expand(front) + Repeat(r.value, r.count)
  {
    ExpandAppend(front, [r]);
    assert Expand([r]) == Repeat(r.value, r.count);
  }

  /** There is only one way to write a sequence as maximal runs, so `Runs`
      finds exactly the runs of the input. */
  lemma {:induction false} RunsUnique(rs: seq<Run>, vals: seq<byte>)
    requires Maximal(rs) && Expand(rs) == vals
    ensures rs == Runs(vals)
    decreases |vals|, 1
  {
    if rs != [] {
      var front := rs[..|rs| - 1];
      var r := rs[|rs| - 1];
      assert rs == front + [r];
      ExpandSnoc(front, r);
      if r.count == 1 {
        RunsUniqueSingle(front, r, vals);
      } else {
        RunsUniqueLonger(front, r, vals);
      }
    }
  }

  /** Dropping the last of maximal runs leaves maximal runs, whose last
      value differs from the dropped run's. */
  lemma MaximalSnoc(front: seq<Run>, r: Run)
    requires Maximal(front + [r])
    ensures Maximal(front) && r.count >= 1
    ensures front != [] ==> Last(front).value != r.value
  {
    var all := front + [r];
    assert forall i :: 0 <= i < |front| ==> front[i] == all[i];
    assert all[|all| - 1] == r;
    if front != [] {
      assert all[|front| - 1] == Last(front);
    }
  }

  /** The last run has length one: it was started by the last value. */
  lemma {:induction false} RunsUniqueSingle(front: seq<Run>, r: Run, vals: seq<byte>)
    requires Maximal(front + [r]) && r.count == 1
    requires vals == Expand(front) + Repeat(r.value, r.count)
    ensures front + [r] == Runs(vals)
    decreases |vals|, 0
  {
    var init := Expand(front);
    assert vals == init + [r.value] by {
      assert Repeat(r.value, 1) == [r.value];
    }
    MaximalSnoc(front, r);
    RunsUnique(front, init);
    RunsSnoc(init, r.value);
  }

  /** The last run is longer: without its last value it is one shorter. */
  lemma {:induction false} RunsUniqueLonger(front: seq<Run>, r: Run, vals: seq<byte>)
    requires Maximal(front + [r]) && r.count > 1
    requires vals == Expand(front) + Repeat(r.value, r.count)
    ensures front + [r] == Runs(vals)
    decreases |vals|, 0
  {
    var shorter := front + [Run(r.value, r.count - 1)];
    var init := Expand(shorter);
    assert vals == init + [r.value] by {
      ExpandSnoc(front, Run(r.value, r.count - 1));
      assert Repeat(r.value, r.count) == Repeat(r.value, r.count - 1) + [r.value];
    }
    assert shorter == Runs(init) by {
      Shorten(front, r);
      RunsUnique(shorter, init);
    }
    assert Append(shorter, r.value) == front + [r] by {
      AppendLonger(front, r.value, r.count - 1);
    }
    RunsSnoc(init, r.value);
  }

  /** Maximal runs stay maximal when the last run loses one value. */
  lemma Shorten(front: seq<Run>, r: Run)
    requires Maximal(front + [r]) && r.count > 1
    ensures Maximal(front + [Run(r.value, r.count - 1)])
  {
    var shorter := front + [Run(r.value, r.count - 1)];
    MaximalSnoc(front, r);
    assert forall i :: 0 <= i < |front| ==> shorter[i] == front[i];
    assert shorter[|front|] == Run(r.value, r.count - 1);
    if front != [] {
      assert shorter[|front| - 1] == Last(front);
    }
  }

  /** A value equal to the last run's lengthens that run. */
  lemma AppendLonger(front: seq<Run>, v: byte, c: nat)
    ensures Append(front + [Run(v, c)], v) == front + [Run(v, c + 1)]
  {
    var runs := front + [Run(v, c)];
    assert Last(runs) == Run(v, c);
    assert runs[..|runs| - 1] == front;
  }

  /** The letter of a value, `chr(v + 65)`. */
  function Symbol(v: byte): (c: char)
    ensures c as int == v + 65
  {
    (v + 65) as char
  }

  predicate IsAsciiDigit(c: char) {
    '0' <= c <= '9'
  }

  /** The characters that can stand for a value. */
  predicate IsSymbol(c: char) {
    65 <= c as int < 65 + 256
  }

  function SymbolValue(c: char): (v: byte)
    requires IsSymbol(c)
    ensures Symbol(v) == c
  {
    c as int - 65
  }

  /** Python's `str.isdigit` on the characters the encoder can produce (code
      points below U+0141): the ASCII digits and the superscripts one, two and
      three. */
  predicate PyIsDigit(c: char) {
    IsAsciiDigit(c) || c as int == 0xB2 || c as int == 0xB3 || c as int == 0xB9
  }

  predicate AllAsciiDigits(s: string) {
    forall i :: 0 <= i < |s| ==> IsAsciiDigit(s[i])
  }

  function DecimalValue(s: string): nat
    requires AllAsciiDigits(s)
  {
    if s == [] then 0 else DecimalValue(s[..|s| - 1]) * 10 + (s[|s| - 1] as int - '0' as int)
  }

  /** `str(n)`: the decimal numeral of `n`, without leading zeros. */
  function Decimal(n: nat): (s: string)
    ensures |s| >= 1
    ensures AllAsciiDigits(s)
    ensures DecimalValue(s) == n
  {
    var last := ('0' as int + n % 10) as char;
    if n < 10 then [last]
    else
      var s := Decimal(n / 10) + [last];
      assert s[..|s| - 1] == Decimal(n / 10);
      s
  }

  /** The text of one run, before the final-digit rule. */
  function Token(r: Run): string {
    [Symbol(r.value)]
      + (if r.count == 2 then [Symbol(r.value)] else if r.count > 2 then Decimal(r.count - 1) else [])
  }

  function EncodeRuns(rs: seq<Run>): string {
    if rs == [] then [] else Token(rs[0]) + EncodeRuns(rs[1..])
  }

  lemma {:induction false} EncodeRunsSnoc(rs: seq<Run>, r: Run)
    ensures EncodeRuns(rs + [r]) == EncodeRuns(rs) + Token(r)
  {
    if rs == [] {
      assert rs + [r] == [r];
    } else {
      assert (rs + [r])[1..] == rs[1..] + [r];
      EncodeRunsSnoc(rs[1..], r);
    }
  }

  /** `if not enc[-1].isdigit(): enc = enc + "0"`. */
  function Terminate(body: string): string
    requires body != []
  {
    if PyIsDigit(Last(body)) then body else body + "0"
  }

  /** The run-length text of `vals`; empty input has none, since the source
      then fails reading `enc[-1]`. */
  function Encode(vals: seq<byte>): (r: Option<string>)
    ensures r.None? <==> vals == []
  {
    if vals == [] then None else Some(Terminate(EncodeRuns(Runs(vals))))
  }

  /** The number of ASCII digits `t` starts with. */
  function DigitPrefix(t: string): (k: nat)
    ensures k <= |t|
  {
    if t == [] || !IsAsciiDigit(t[0]) then 0 else 1 + DigitPrefix(t[1..])
  }

  function Prepend(p: seq<byte>, o: Option<seq<byte>>): Option<seq<byte>> {
    match o
    case None => None
    case Some(rest) => Some(p + rest)
  }

  lemma PrependPrepend(a: seq<byte>, b: seq<byte>, o: Option<seq<byte>>)
    ensures Prepend(a, Prepend(b, o)) == Prepend(a + b, o)
  {
    if o.Some? {
      assert a + (b + o.value) == (a + b) + o.value;
    }
  }

  /** Reads the text as letters, each optionally followed by a numeral; fails
      on a character that is neither. */
  function Decode(s: string): Option<seq<byte>>
    decreases |s|
  {
    if s == [] then Some([])
    else if !IsSymbol(s[0]) then None
    else
      var k := DigitPrefix(s[1..]);
      assert AllAsciiDigits(s[1..1 + k]) by {
        DigitPrefixDigits(s[1..], k);
        assert s[1..][..k] == s[1..1 + k];
      }
      var copies := if k == 0 then 1 else DecimalValue(s[1..1 + k]) + 1;
      Prepend(Repeat(SymbolValue(s[0]), copies), Decode(s[1 + k..]))
  }

  lemma {:induction false} DigitPrefixDigits(t: string, k: nat)
    requires k == DigitPrefix(t)
    ensures AllAsciiDigits(t[..k])
  {
    if k > 0 {
      DigitPrefixDigits(t[1..], k - 1);
      assert t[..k] == [t[0]] + t[1..][..k - 1];
    }
  }

  lemma {:induction false} DigitPrefixOf(d: string, rest: string)
    requires AllAsciiDigits(d)
    requires rest == [] || !IsAsciiDigit(rest[0])
    ensures DigitPrefix(d + rest) == |d|
  {
    if d == [] {
      assert d + rest == rest;
    } else {
      assert (d + rest)[1..] == d[1..] + rest;
      DigitPrefixOf(d[1..], rest);
    }
  }

  /** A letter not followed by a digit is one copy. */
  lemma DecodeBare(v: byte, rest: string)
    requires rest == [] || !IsAsciiDigit(rest[0])
    ensures Decode([Symbol(v)] + rest) == Prepend([v], Decode(rest))
  {
    var s := [Symbol(v)] + rest;
    assert s[0] == Symbol(v) && IsSymbol(s[0]) && SymbolValue(s[0]) == v;
    assert s[1..] == rest;
    assert DigitPrefix(rest) == 0;
    assert s[1 + 0..] == rest;
    assert Repeat(v, 1) == [v];
  }

  /** A letter followed by a numeral `d` is `d + 1` copies. */
  lemma DecodeCounted(v: byte, d: string, rest: string)
    requires |d| >= 1 && AllAsciiDigits(d)
    requires rest == [] || !IsAsciiDigit(rest[0])
    ensures Decode([Symbol(v)] + d + rest) == Prepend(Repeat(v, DecimalValue(d) + 1), Decode(rest))
  {
    var s := [Symbol(v)] + d + rest;
    CountedToken(v, d, rest);
    DecodeStep(s, |d|, DecimalValue(d) + 1);
    assert Decode(s[1 + |d|..]) == Decode(rest);
  }

  /** Where the parts of a counted token sit in the text. */
  lemma CountedToken(v: byte, d: string, rest: string)
    requires AllAsciiDigits(d)
    requires rest == [] || !IsAsciiDigit(rest[0])
    ensures var s := [Symbol(v)] + d + rest;
            s != [] && IsSymbol(s[0]) && SymbolValue(s[0]) == v
            && DigitPrefix(s[1..]) == |d| && s[1..1 + |d|] == d && s[1 + |d|..] == rest
  {
    var s := [Symbol(v)] + d + rest;
    var t := d + rest;
    assert s[1..] == t;
    DigitPrefixOf(d, rest);
    assert s[1..1 + |d|] == t[..|d|];
    assert s[1 + |d|..] == t[|d|..];
  }

  /** One step of `Decode` on text that starts with a letter, with the
      length of the numeral after it named. */
  lemma DecodeStep(s: string, k: nat, copies: nat)
    requires s != [] && IsSymbol(s[0]) && k == DigitPrefix(s[1..])
    requires k == 0 ==> copies == 1
    requires k >= 1 ==> AllAsciiDigits(s[1..1 + k]) && copies == DecimalValue(s[1..1 + k]) + 1
    ensures Decode(s) == Prepend(Repeat(SymbolValue(s[0]), copies), Decode(s[1 + k..]))
  {
  }

  /** Decoding one token followed by text that does not start with a digit. */
  lemma DecodeToken(r: Run, rest: string)
    requires r.count >= 1
    requires rest == [] || !IsAsciiDigit(rest[0])
    ensures Decode(Token(r) + rest) == Prepend(Repeat(r.value, r.count), Decode(rest))
  {
    var sym := Symbol(r.value);
    if r.count == 1 {
      assert Token(r) + rest == [sym] + rest;
      DecodeBare(r.value, rest);
      assert Repeat(r.value, 1) == [r.value];
    } else if r.count == 2 {
      assert Token(r) + rest == [sym] + ([sym] + rest);
      DecodeBare(r.value, [sym] + rest);
      DecodeBare(r.value, rest);
      PrependPrepend([r.value], [r.value], Decode(rest));
      assert Repeat(r.value, 2) == [r.value] + [r.value];
    } else {
      assert Token(r) + rest == [sym] + Decimal(r.count - 1) + rest;
      DecodeCounted(r.value, Decimal(r.count - 1), rest);
    }
  }

  /** The final token followed by the appended `0`: a lone letter reads as
      `letter, 0` (one copy); a doubled letter as one copy, then `letter, 0`. */
  lemma DecodeTerminatedToken(r: Run)
    requires 1 <= r.count <= 2
    ensures Decode(Token(r) + "0") == Some(Repeat(r.value, r.count))
  {
    var sym := Symbol(r.value);
    var v := r.value;
    assert DecimalValue("0") == 0;
    DecodeCounted(v, "0", []);
    assert [sym] + "0" + [] == [sym] + "0";
    assert Decode([]) == Some([]);
    assert Decode([sym] + "0") == Some(Repeat(v, 1) + []);
    assert Repeat(v, 1) + [] == [v];
    if r.count == 1 {
      assert Token(r) + "0" == [sym] + "0";
      assert Decode(Token(r) + "0") == Some([v]);
      assert Repeat(r.value, r.count) == [v];
    } else {
      assert Token(r) + "0" == [sym] + ([sym] + "0");
      DecodeBare(v, [sym] + "0");
      assert Repeat(v, 2) == [v] + [v];
    }
  }

  /** Decoding the tokens of nonempty runs, with or without the final `0`
      (which only follows a token that ends in a letter), gives back the
      expanded runs. */
  lemma {:induction false} DecodeEncodeRuns(rs: seq<Run>, tail: string)
    requires forall i :: 0 <= i < |rs| ==> rs[i].count >= 1
    requires tail == "" || (tail == "0" && |rs| > 0 && Last(rs).count <= 2)
    ensures Decode(EncodeRuns(rs) + tail) == Some(Expand(rs))
  {
    if rs == [] {
      assert EncodeRuns(rs) + tail == [];
    } else {
      var rest := rs[1..];
      assert EncodeRuns(rs) + tail == Token(rs[0]) + (EncodeRuns(rest) + tail);
      if rest == [] {
        assert EncodeRuns(rest) + tail == tail;
        assert Expand(rs) == Repeat(rs[0].value, rs[0].count) + Expand(rest);
        assert Expand(rest) == [];
        if tail == "" {
          DecodeToken(rs[0], tail);
          assert Decode([]) == Some([]);
          assert Token(rs[0]) + (EncodeRuns(rest) + tail) == Token(rs[0]) + [];
        } else {
          DecodeTerminatedToken(rs[0]);
          assert Repeat(rs[0].value, rs[0].count) + Expand(rest) == Repeat(rs[0].value, rs[0].count);
        }
      } else {
        assert Last(rest) == Last(rs);
        DecodeEncodeRuns(rest, tail);
        assert (EncodeRuns(rest) + tail)[0] == Symbol(rest[0].value);
        DecodeToken(rs[0], EncodeRuns(rest) + tail);
      }
    }
  }

  /** The text ends in the last run's token. */
  lemma EncodeRunsLast(rs: seq<Run>)
    requires |rs| > 0
    ensures |EncodeRuns(rs)| > 0
    ensures Last(EncodeRuns(rs)) == Last(Token(Last(rs)))
  {
    assert rs == rs[..|rs| - 1] + [Last(rs)];
    EncodeRunsSnoc(rs[..|rs| - 1], Last(rs));
  }

  /** Round trip: the decoder reads back exactly the encoded values. */
  lemma EncodeDecode(vals: seq<byte>)
    requires vals != []
    ensures Decode(Encode(vals).value) == Some(vals)
  {
    var rs := Runs(vals);
    RunsSpec(vals);
    var body := EncodeRuns(rs);
    EncodeRunsLast(rs);
    var r := Last(rs);
    if r.count > 2 {
      assert Last(Token(r)) == Last(Decimal(r.count - 1));
      assert Terminate(body) == body;
      DecodeEncodeRuns(rs, "");
      assert body + "" == body;
    } else {
      assert Last(Token(r)) == Symbol(r.value);
      if Terminate(body) == body {
        DecodeEncodeRuns(rs, "");
        assert body + "" == body;
      } else {
        DecodeEncodeRuns(rs, "0");
      }
    }
  }

  /** The text always ends in a character `isdigit` accepts; it ends in an
      ASCII digit unless the last value's letter is itself one of the
      superscript digits. */
  lemma EncodeEndsInDigit(vals: seq<byte>)
    requires vals != []
    ensures PyIsDigit(Last(Encode(vals).value))
    ensures !PyIsDigit(Symbol(Last(vals))) ==> IsAsciiDigit(Last(Encode(vals).value))
  {
    var rs := Runs(vals);
    RunsSpec(vals);
    EncodeRunsLast(rs);
    var r := Last(rs);
    if r.count > 2 {
      assert Last(Token(r)) == Last(Decimal(r.count - 1));
    } else {
      assert Last(Token(r)) == Symbol(r.value);
    }
  }

  /** The text consists of letters and ASCII digits only. */
  lemma EncodeAlphabet(vals: seq<byte>)
    requires vals != []
    ensures forall i :: 0 <= i < |Encode(vals).value| ==>
              IsSymbol(Encode(vals).value[i]) || IsAsciiDigit(Encode(vals).value[i])
  {
    EncodeRunsAlphabet(Runs(vals));
  }

  lemma {:induction false} EncodeRunsAlphabet(rs: seq<Run>)
    ensures forall i :: 0 <= i < |EncodeRuns(rs)| ==> IsSymbol(EncodeRuns(rs)[i]) || IsAsciiDigit(EncodeRuns(rs)[i])
  {
    if rs != [] {
      EncodeRunsAlphabet(rs[1..]);
      var t := Token(rs[0]);
      assert forall i :: 0 <= i < |t| ==> IsSymbol(t[i]) || IsAsciiDigit(t[i]);
    }
  }

  /** The encoder loop as `multicolor.py` writes it: `prev` holds the
      current run's letter (empty before the first value), `count` its
      length; a different letter flushes the run into `enc`. It computes
      exactly `Encode`. */
  method EncodeLoop(vals: seq<byte>) returns (r: Option<string>)
    ensures r == Encode(vals)
  {
    var enc: string := "";
    var prev: string := "";
    var count: nat := 1;
    for i := 0 to |vals|
      invariant State(vals[..i], enc, prev, count)
    {
      var value := Symbol(vals[i]);
      Step(vals[..i], vals[i], enc, prev, count);
      PrefixSnoc(vals, i);
      if [value] != prev {
        if prev != "" {
          enc := WriteRun(enc, prev, count);
        }
        count := 1;
        prev := [value];
      } else {
        count := count + 1;
      }
    }
    assert vals[..|vals|] == vals;
    Finish(vals, enc, prev, count);
    enc := WriteRun(enc, prev, count);
    if enc == [] {
      return None;
    }
    if !PyIsDigit(enc[|enc| - 1]) {
      enc := enc + "0";
    }
    return Some(enc);
  }

  lemma PrefixSnoc(s: seq<byte>, i: nat)
    requires i < |s|
    ensures s[..i + 1] == s[..i] + [s[i]]
  {
  }

  /** Writes out a run: its letter, then the letter again for a run of two
      or the decimal run length minus one for a longer run. */
  method WriteRun(enc: string, prev: string, count: nat) returns (e: string)
    ensures e == enc + prev + Tail(prev, count)
  {
    e := enc + prev;
    if count == 2 {
      e := e + prev;
    } else if count > 2 {
      e := e + Decimal(count - 1);
    }
  }

  /** The loop state after the values `seen`: nothing before the first value;
      afterwards every finished run is in `enc`, the last run's letter is
      `prev` and its length `count`. */
  ghost predicate State(seen: seq<byte>, enc: string, prev: string, count: nat) {
    if seen == [] then enc == "" && prev == "" && count == 1
    else Current(Runs(seen), enc, prev, count)
  }

  /** One iteration of the loop keeps `State`. */
  lemma Step(seen: seq<byte>, x: byte, enc: string, prev: string, count: nat)
    requires State(seen, enc, prev, count)
    ensures [Symbol(x)] != prev ==>
              State(seen + [x], if prev != "" then enc + prev + Tail(prev, count) else enc, [Symbol(x)], 1)
    ensures [Symbol(x)] == prev ==> State(seen + [x], enc, prev, count + 1)
  {
    RunsSnoc(seen, x);
    var rs := Runs(seen);
    if [Symbol(x)] != prev {
      if prev != "" {
        Flush(rs, enc, prev, count);
        StartRun(rs, enc + prev + Tail(prev, count), prev, x);
      } else {
        StartRun(rs, enc, prev, x);
      }
    } else {
      ContinueRun(rs, enc, prev, count, x);
    }
  }

  /** The loop state after some values: every finished run is in `enc`, the
      last run's letter is `prev` and its length `count`. */
  ghost predicate Current(rs: seq<Run>, enc: string, prev: string, count: nat) {
    |rs| > 0 && prev == [Symbol(Last(rs).value)] && count == Last(rs).count
    && enc == EncodeRuns(rs[..|rs| - 1])
  }

  /** What writing out the current run appends after its letter. */
  function Tail(prev: string, count: nat): string {
    if count == 2 then prev else if count > 2 then Decimal(count - 1) else []
  }

  /** A letter different from `prev` starts a new run after the flushed ones. */
  lemma StartRun(rs: seq<Run>, enc: string, prev: string, x: byte)
    requires prev == "" ==> rs == [] && enc == ""
    requires prev != "" ==> |rs| > 0 && [Symbol(x)] != prev && prev == [Symbol(Last(rs).value)]
                            && enc == EncodeRuns(rs)
    ensures Current(Append(rs, x), enc, [Symbol(x)], 1)
  {
    if prev != "" {
      assert Last(rs).value != x;
    }
    assert Append(rs, x) == rs + [Run(x, 1)];
    assert (rs + [Run(x, 1)])[..|rs|] == rs;
  }

  /** The same letter again lengthens the current run. */
  lemma ContinueRun(rs: seq<Run>, enc: string, prev: string, count: nat, x: byte)
    requires Current(rs, enc, prev, count) && [Symbol(x)] == prev
    ensures Current(Append(rs, x), enc, prev, count + 1)
  {
    assert Symbol(x) == Symbol(Last(rs).value);
    var front := rs[..|rs| - 1];
    assert Append(rs, x) == front + [Run(x, count + 1)];
    assert (front + [Run(x, count + 1)])[..|front|] == front;
  }

  /** After the last value, writing out the current run gives the text of
      all runs, empty exactly when there were no values. */
  lemma Finish(vals: seq<byte>, enc: string, prev: string, count: nat)
    requires State(vals, enc, prev, count)
    ensures var done := enc + prev + Tail(prev, count);
            (done == [] <==> vals == []) && (vals != [] ==> Encode(vals) == Some(Terminate(done)))
  {
    if vals != [] {
      Flush(Runs(vals), enc, prev, count);
    }
  }

  /** Writing out the current run completes the text of all runs so far. */
  lemma Flush(rs: seq<Run>, enc: string, prev: string, count: nat)
    requires Current(rs, enc, prev, count)
    ensures enc + prev + Tail(prev, count) == EncodeRuns(rs)
  {
    EncodeRunsSnoc(rs[..|rs| - 1], Last(rs));
    assert rs[..|rs| - 1] + [Last(rs)] == rs;
  }
}

=== FILE: rle_codec.dfy ===
/** The two run-length encoders the program applies to its hex streams, and
    the choice between them and the raw output. */
module RleCodec {
  import opened Wrappers
  import opened Seqs
  import opened Hex
  import opened Rle

  /** Why an encoder gives up: a character pair that is not hexadecimal
      (Python's `int(_, 16)` raises), or nothing to encode (reading the last
      character of an empty text raises). */
  datatype RleError = BadDigit | NoData

  /** Values known to be below 256, as bytes. */
  function ToBytes(vs: seq<nat>): (bs: seq<byte>)
    requires forall i :: 0 <= i < |vs| ==> vs[i] < 256
    ensures |bs| == |vs|
    ensures forall i :: 0 <= i < |vs| ==> bs[i] == vs[i]
  {
    seq(|vs|, i requires 0 <= i < |vs| => vs[i] as byte)
  }

  /** Every value of a one-digit parse also fits in two digits. */
  lemma FitWider(vs: seq<nat>)
    requires Fit(vs, 1)
    ensures Fit(vs, 2)
  {
    assert Pow16(1) == 16 && Pow16(2) == 256;
  }

  /** The run-length text of values given as one hex digit each. */
  function Rle16(data: string): (r: Result<string, RleError>)
    ensures r.Failure? ==> (r.error == BadDigit <==> !AllHex(data))
    ensures r.Failure? ==> (r.error == NoData <==> AllHex(data) && data == [])
    ensures r.Success? <==> AllHex(data) && data != []
  {
    ParseFixedDefined(data, 1);
    match ParseFixed(data, 1)
    case None => Failure(BadDigit)
    case Some(vs) =>
      FitWider(vs);
      ParseFixedLength(data, 1);
      match Encode(ToBytes(vs))
      case None => Failure(NoData)
      case Some(text) => Success(text)
  }

  /** The text with every value read back, one hex digit per value. */
  lemma Rle16RoundTrip(data: string)
    requires Rle16(data).Success?
    ensures ParseFixed(data, 1).Some?
    ensures Decode(Rle16(data).value) == Some(ToBytes(ParseFixed(data, 1).value))
  {
    ParseFixedDefined(data, 1);
    var vs := ParseFixed(data, 1).value;
    FitWider(vs);
    EncodeDecode(ToBytes(vs));
  }

  /** The values of a two-digit stream: consecutive character pairs, the odd
      last character dropped as `zip` drops it. */
  function PairText(data: string): (t: string)
    ensures |t| % 2 == 0 && |data| - 1 <= |t| <= |data|
    ensures t == data[..|t|]
  {
    data[..|data| - |data| % 2]
  }

  /** The character `\`, which the program may not emit inside a string
      literal, is written as `&`. */
  function Escape(s: string): (r: string)
    ensures |r| == |s|
    ensures forall i :: 0 <= i < |s| ==> r[i] == (if s[i] == '\\' then '&' else s[i])
    ensures '\\' !in r
  {
    seq(|s|, i requires 0 <= i < |s| => if s[i] == '\\' then '&' else s[i])
  }

  /** How a reader of the escaped text restores it. */
  function Unescape(s: string): (r: string)
    ensures |r| == |s|
    ensures forall i :: 0 <= i < |s| ==> r[i] == (if s[i] == '&' then '\\' else s[i])
  {
    seq(|s|, i requires 0 <= i < |s| => if s[i] == '&' then '\\' else s[i])
  }

  /** Escaping loses nothing on a text without `&`. */
  lemma UnescapeEscape(s: string)
    requires '&' !in s
    ensures Unescape(Escape(s)) == s
  {
    var u := Unescape(Escape(s));
    forall i | 0 <= i < |s| ensures u[i] == s[i] {
      assert s[i] != '&';
    }
  }

  /** No run-length text holds `&`: it is neither a letter nor a digit. */
  lemma EncodeHasNoAmpersand(vals: seq<byte>)
    requires vals != []
    ensures '&' !in Encode(vals).value
  {
    EncodeAlphabet(vals);
  }

  /** The run-length text of values given as two hex digits each, with `\`
      escaped. */
  function Rle31(data: string): (r: Result<string, RleError>)
    ensures r.Failure? ==> (r.error == BadDigit <==> !AllHex(PairText(data)))
    ensures r.Failure? ==> (r.error == NoData <==> AllHex(PairText(data)) && |data| < 2)
    ensures r.Success? <==> AllHex(PairText(data)) && |data| >= 2
    ensures r.Success? ==> '\\' !in r.value
  {
    var pairs := PairText(data);
    ParseFixedDefined(pairs, 2);
    match ParseFixed(pairs, 2)
    case None => Failure(BadDigit)
    case Some(vs) =>
      ParseFixedLength(pairs, 2);
      match Encode(ToBytes(vs))
      case None => Failure(NoData)
      case Some(text) => Success(Escape(text))
  }

  /** Unescaping and decoding the text gives back every pair's value. */
  lemma Rle31RoundTrip(data: string)
    requires Rle31(data).Success?
    ensures ParseFixed(PairText(data), 2).Some?
    ensures Decode(Unescape(Rle31(data).value)) == Some(ToBytes(ParseFixed(PairText(data), 2).value))
  {
    ParseFixedDefined(PairText(data), 2);
    var bs := ToBytes(ParseFixed(PairText(data), 2).value);
    EncodeHasNoAmpersand(bs);
    UnescapeEscape(Encode(bs).value);
    EncodeDecode(bs);
  }

  /** The two output forms: the hex streams as they are, or run-length
      encoded. */
  datatype Output =
    | RawOutput(palette: string, pixels: string)
    | RleOutput(palette: string, pixels: string)

  /** The palette is always one-digit hex; the pixels are one-digit or
      two-digit according to `digits`. */
  function Compress(digits: nat, rle: bool, palette: string, pixels: string): (r: Result<Output, RleError>)
    requires digits == 1 || digits == 2
    ensures !rle ==> r == Success(RawOutput(palette, pixels))
    ensures rle && r.Success? ==> r.value.RleOutput?
    ensures rle ==> (r.Success? <==>
                       (Rle16(palette).Success? && (if digits == 1 then Rle16(pixels) else Rle31(pixels)).Success?))
  {
    if !rle then Success(RawOutput(palette, pixels))
    else
      var pal := Rle16(palette);
      var gfx := if digits == 1 then Rle16(pixels) else Rle31(pixels);
      if pal.Failure? then Failure(pal.error)
      else if gfx.Failure? then Failure(gfx.error)
      else Success(RleOutput(pal.value, gfx.value))
  }

  /** How a reader gets the pixel values back from compressed output. */
  function ReadPixels(digits: nat, text: string): Option<seq<byte>> {
    if digits == 1 then Decode(text) else Decode(Unescape(text))
  }

  /** The hex values of a pixel stream as the program reads it. */
  function PixelValues(digits: nat, pixels: string): Option<seq<nat>>
    requires digits == 1 || digits == 2
  {
    if digits == 1 then ParseFixed(pixels, 1) else ParseFixed(PairText(pixels), 2)
  }

  /** Run-length output is lossless: both streams read back to the values the
      hex streams held. */
  lemma CompressRoundTrip(digits: nat, palette: string, pixels: string)
    requires digits == 1 || digits == 2
    requires Compress(digits, true, palette, pixels).Success?
    ensures ParseFixed(palette, 1).Some? && PixelValues(digits, pixels).Some?
    ensures var out := Compress(digits, true, palette, pixels).value;
            Decode(out.palette) == Some(ToBytes(ParseFixed(palette, 1).value))
            && Fit(PixelValues(digits, pixels).value, 2)
            && ReadPixels(digits, out.pixels) == Some(ToBytes(PixelValues(digits, pixels).value))
  {
    Rle16RoundTrip(palette);
    if digits == 1 {
      Rle16RoundTrip(pixels);
      FitWider(ParseFixed(pixels, 1).value);
    } else {
      Rle31RoundTrip(pixels);
    }
  }
}

=== FILE: seqs.dfy ===
/** Small sequence utilities used by the serializers and the run-length codec. */
module Seqs {

  function Min(a: nat, b: nat): nat {
    if a <= b then a else b
  }

  function Last<T>(s: seq<T>): T
    requires |s| > 0
  {
    s[|s| - 1]
  }

  /** `n` copies of `x`. */
  function Repeat<T>(x: T, n: nat): (r: seq<T>)
    ensures |r| == n
    ensures forall i :: 0 <= i < n ==> r[i] == x
  {
    seq(n, _ => x)
  }

  /** Joins the parts in order, as Python's repeated `+=` on strings does. */
  function Concat<T>(parts: seq<seq<T>>): seq<T> {
    if parts == [] then [] else parts[0] + Concat(parts[1..])
  }

  lemma {:induction false} ConcatLengthAtLeast<T>(parts: seq<seq<T>>, i: nat)
    requires i < |parts|
    ensures |Concat(parts)| >= |parts[i]|
  {
    if i > 0 {
      ConcatLengthAtLeast(parts[1..], i - 1);
    }
  }

  lemma {:induction false} ConcatAppend<T>(a: seq<seq<T>>, b: seq<seq<T>>)
    ensures Concat(a + b) == Concat(a) + Concat(b)
  {
    if a == [] {
      assert a + b == b;
    } else {
      assert (a + b)[1..] == a[1..] + b;
      ConcatAppend(a[1..], b);
    }
  }

  /** When every part has the same length, the whole has `|parts| * len` elements. */
  lemma {:induction false} ConcatUniformLength<T>(parts: seq<seq<T>>, len: nat)
    requires forall i :: 0 <= i < |parts| ==> |parts[i]| == len
    ensures |Concat(parts)| == |parts| * len
  {
    if parts != [] {
      ConcatUniformLength(parts[1..], len);
      assert |parts| * len == len + |parts[1..]| * len;
    }
  }

  /** ... and part `y` sits at offset `start = y * len`. */
  lemma {:induction false} ConcatUniformPart<T>(parts: seq<seq<T>>, len: nat, y: nat, start: nat)
    requires forall i :: 0 <= i < |parts| ==> |parts[i]| == len
    requires y < |parts| && start == y * len
    ensures start + len <= |Concat(parts)|
    ensures Concat(parts)[start .. start + len] == parts[y]
  {
    ConcatUniformLength(parts, len);
    assert start + len <= |parts| * len by {
      MulMonotone(y + 1, |parts|, len);
    }
    if y > 0 {
      var rest := parts[1..];
      var lo := (y - 1) * len;
      assert start == len + lo;
      ConcatUniformPart(rest, len, y - 1, lo);
      assert Concat(parts) == parts[0] + Concat(rest);
      assert Concat(parts)[start .. start + len] == Concat(rest)[lo .. lo + len];
    }
  }

  lemma SplitLast<T>(s: seq<T>)
    requires |s| > 0
    ensures s == s[..|s| - 1] + [Last(s)]
  {
  }

  lemma RepeatSnoc<T>(x: T, n: nat)
    ensures Repeat(x, n + 1) == Repeat(x, n) + [x]
  {
  }

  lemma Assoc<T>(a: seq<T>, b: seq<T>, c: seq<T>)
    ensures a + (b + c) == (a + b) + c
  {
  }

  lemma MulMonotone(a: nat, b: nat, c: nat)
    requires a <= b
    ensures a * c <= b * c
  {
  }

  lemma SliceMiddle<T>(a: seq<T>, b: seq<T>, c: seq<T>)
    ensures (a + (b + c))[|a| .. |a| + |b|] == b
  {
  }

  lemma MulDouble(a: nat, b: nat)
    ensures 0 <= a * b
    ensures a * (2 * b) == 2 * (a * b)
  {
  }
}

=== FILE: serialize.dfy ===
/** The serializer: turns the converted image into the two hex text streams,
    pixels and palette (`get_multicolor` and `get_indexed`). */
module Serialize {
  import opened Wrappers
  import opened Seqs
  import opened Hex
  import opened Picture
  import opened Frame

  /** One row after the final ADAPTIVE pass of `get_multicolor`: its palette
      index per pixel and the palette bytes `getpalette` returns (R, G, B per
      slot). The pass itself is PIL's and is taken as input. */
  datatype QuantizedLine = QuantizedLine(indices: seq<nat>, palette: seq<byte>)

  /** An image in PIL's "P" mode: palette index per pixel, row by row, and the
      palette bytes. */
  datatype PaletteImage = PaletteImage(pixels: seq<seq<nat>>, palette: seq<byte>)

  /** The `(Pix, Pal)` pair both serializers return. */
  datatype Streams = Streams(pixels: string, palette: string)

  function Shift(vs: seq<nat>, offset: nat): (r: seq<nat>)
    ensures |r| == |vs|
    ensures forall i :: 0 <= i < |vs| ==> r[i] == vs[i] + offset
  {
    seq(|vs|, i requires 0 <= i < |vs| => vs[i] + offset)
  }

  lemma ShiftAppend(a: seq<nat>, b: seq<nat>, offset: nat)
    ensures Shift(a + b, offset) == Shift(a, offset) + Shift(b, offset)
  {
  }

  /** The hex text of one row of pixels: each index moved up by `offset` and
      written with `digits` hex digits. */
  function PixelRow(indices: seq<nat>, offset: nat, digits: nat): string {
    FormatAll(Shift(indices, offset), digits)
  }

  function PixelRows(rows: seq<seq<nat>>, offset: nat, digits: nat): (parts: seq<string>)
    ensures |parts| == |rows|
    ensures forall y :: 0 <= y < |rows| ==> parts[y] == PixelRow(rows[y], offset, digits)
  {
    seq(|rows|, y requires 0 <= y < |rows| => PixelRow(rows[y], offset, digits))
  }

  /** Writing the rows one after another is writing the row-major sequence of
      all indices. */
  lemma {:induction false} PixelRowsFlatten(rows: seq<seq<nat>>, offset: nat, digits: nat)
    ensures Concat(PixelRows(rows, offset, digits)) == FormatAll(Shift(Concat<nat>(rows), offset), digits)
  {
    if rows != [] {
      assert PixelRows(rows, offset, digits)[1..] == PixelRows(rows[1..], offset, digits);
      PixelRowsFlatten(rows[1..], offset, digits);
      ShiftAppend(rows[0], Concat<nat>(rows[1..]), offset);
      FormatAllAppend(Shift(rows[0], offset), Shift(Concat<nat>(rows[1..]), offset), digits);
    }
  }

  function IndexRows(lines: seq<QuantizedLine>): (rows: seq<seq<nat>>)
    ensures |rows| == |lines|
    ensures forall y :: 0 <= y < |lines| ==> rows[y] == lines[y].indices
  {
    seq(|lines|, y requires 0 <= y < |lines| => lines[y].indices)
  }

  function BorderBytes(border: Option<Rgb>): seq<byte> {
    if border.Some? then RgbBytes(border.value) else []
  }

  /** The palette text of one row: the border colour when one is set, then
      the first `workRange * 3` palette bytes (fewer when the palette is
      shorter), two hex digits each. */
  function PaletteRow(line: QuantizedLine, workRange: nat, border: Option<Rgb>): (s: string)
    ensures ParseFixed(s, 2) == Some(BorderBytes(border) + line.palette[..Min(|line.palette|, 3 * workRange)])
    ensures |s| == 6 * Offset(border) + 2 * Min(|line.palette|, 3 * workRange)
  {
    var entries := line.palette[..Min(|line.palette|, 3 * workRange)];
    var s := (if border.Some? then BorderHex(border.value) else "") + Bytes(entries);
    FormatAllAppend(BorderBytes(border), entries, 2);
    assert s == Bytes(BorderBytes(border) + entries);
    s
  }

  /** The bytes one row contributes to the palette stream. */
  function RowBytes(line: QuantizedLine, workRange: nat, border: Option<Rgb>): seq<byte> {
    BorderBytes(border) + line.palette[..Min(|line.palette|, 3 * workRange)]
  }

  /** The bytes each row contributes, in row order. */
  function RowsBytes(lines: seq<QuantizedLine>, workRange: nat, border: Option<Rgb>): (parts: seq<seq<byte>>)
    ensures |parts| == |lines|
    ensures forall y :: 0 <= y < |lines| ==> parts[y] == RowBytes(lines[y], workRange, border)
  {
    seq(|lines|, y requires 0 <= y < |lines| => RowBytes(lines[y], workRange, border))
  }

  /** The bytes of the whole palette stream, row after row. */
  function PaletteStreamBytes(lines: seq<QuantizedLine>, workRange: nat, border: Option<Rgb>): seq<byte> {
    Concat(RowsBytes(lines, workRange, border))
  }

  lemma PaletteRowIsBytes(line: QuantizedLine, workRange: nat, border: Option<Rgb>)
    ensures PaletteRow(line, workRange, border) == Bytes(RowBytes(line, workRange, border))
  {
    FormatAllAppend(BorderBytes(border), line.palette[..Min(|line.palette|, 3 * workRange)], 2);
  }

  /** Writing the rows' palette texts one after another is writing all
      their bytes at once. */
  lemma {:induction false} PaletteRowsBytes(lines: seq<QuantizedLine>, workRange: nat, border: Option<Rgb>)
    ensures Concat(PaletteRows(lines, workRange, border)) == Bytes(PaletteStreamBytes(lines, workRange, border))
  {
    if lines != [] {
      var parts := PaletteRows(lines, workRange, border);
      assert parts[1..] == PaletteRows(lines[1..], workRange, border);
      var rows := RowsBytes(lines, workRange, border);
      assert rows[1..] == RowsBytes(lines[1..], workRange, border);
      PaletteRowsBytes(lines[1..], workRange, border);
      PaletteRowIsBytes(lines[0], workRange, border);
      FormatAllAppend(RowBytes(lines[0], workRange, border), PaletteStreamBytes(lines[1..], workRange, border), 2);
    }
  }

  function PaletteRows(lines: seq<QuantizedLine>, workRange: nat, border: Option<Rgb>): (parts: seq<string>)
    ensures |parts| == |lines|
    ensures forall y :: 0 <= y < |lines| ==> parts[y] == PaletteRow(lines[y], workRange, border)
  {
    seq(|lines|, y requires 0 <= y < |lines| => PaletteRow(lines[y], workRange, border))
  }

  /** `get_multicolor`: for every row, its pixels as `digits`-wide hex of
      index plus border offset, and its palette segment. */
  function MulticolorStreams(plan: Plan, lines: seq<QuantizedLine>): Streams {
    var offset := Offset(plan.border);
    Streams(Concat(PixelRows(IndexRows(lines), offset, plan.digits)),
            Concat(PaletteRows(lines, plan.workRange, plan.border)))
  }

  /** Whatever the length of each row's palette, the multicolor palette
      stream reads back, two digits per byte, to every row's border bytes and
      copied palette bytes in turn. */
  lemma MulticolorPaletteBytes(plan: Plan, lines: seq<QuantizedLine>)
    ensures ParseFixed(MulticolorStreams(plan, lines).palette, 2)
            == Some(PaletteStreamBytes(lines, plan.workRange, plan.border))
    ensures |MulticolorStreams(plan, lines).palette| == 2 * |PaletteStreamBytes(lines, plan.workRange, plan.border)|
    ensures MulticolorStreams(plan, lines).palette == Bytes(PaletteStreamBytes(lines, plan.workRange, plan.border))
  {
    PaletteRowsBytes(lines, plan.workRange, plan.border);
  }

  /** Every row has `width` pixels whose indices stay below the budget. */
  predicate WellFormedLines(lines: seq<QuantizedLine>, width: nat, workRange: nat) {
    forall y :: 0 <= y < |lines| ==>
      |lines[y].indices| == width && forall x :: 0 <= x < width ==> lines[y].indices[x] < workRange
  }

  /** The palette stream has at least one byte: a border is set, or some
      row's quantizer palette is not empty. */
  predicate SomePalette(lines: seq<QuantizedLine>, border: Option<Rgb>) {
    (border.Some? && |lines| >= 1) || exists y :: 0 <= y < |lines| && |lines[y].palette| > 0
  }

  /** Every row's palette holds at least the `workRange` slots the stream
      copies. */
  predicate FullPalettes(lines: seq<QuantizedLine>, workRange: nat) {
    forall y :: 0 <= y < |lines| ==> |lines[y].palette| >= 3 * workRange
  }

  /** A plan whose alphabet fits its digit width, as every plan `MakePlan`
      returns is. */
  predicate Consistent(plan: Plan) {
    plan.digits >= 1 && Alphabet(plan) <= Pow16(plan.digits)
  }

  lemma {:induction false} ConcatRectangle(rows: seq<seq<nat>>, width: nat, bound: nat)
    requires forall y :: 0 <= y < |rows| ==> |rows[y]| == width && forall x :: 0 <= x < width ==> rows[y][x] < bound
    ensures |Concat<nat>(rows)| == |rows| * width
    ensures forall v :: v in Concat<nat>(rows) ==> v < bound
  {
    if rows != [] {
      assert Concat<nat>(rows) == rows[0] + Concat<nat>(rows[1..]);
      ConcatRectangle(rows[1..], width, bound);
      MulSucc(|rows[1..]|, width);
    }
  }

  /** The multicolor pixel stream of a `|lines|` by `width` image has
      `digits` characters per pixel, row-major, and each reads back as the
      quantizer index plus the border offset; with a border set, no pixel
      value is 0, the slot the border owns. */
  lemma MulticolorPixels(plan: Plan, lines: seq<QuantizedLine>, width: nat)
    requires plan.mode == Multicolor && Consistent(plan)
    requires WellFormedLines(lines, width, plan.workRange)
    ensures |MulticolorStreams(plan, lines).pixels| == |lines| * width * plan.digits
    ensures ParseFixed(MulticolorStreams(plan, lines).pixels, plan.digits)
            == Some(Shift(Concat<nat>(IndexRows(lines)), Offset(plan.border)))
    ensures plan.border.Some? ==>
              forall v :: v in ParseFixed(MulticolorStreams(plan, lines).pixels, plan.digits).value ==> v >= 1
  {
    var offset := Offset(plan.border);
    var rows := IndexRows(lines);
    ConcatRectangle(rows, width, plan.workRange);
    var flat: seq<nat> := Concat<nat>(rows);
    var shifted := Shift(flat, offset);
    assert Fit(shifted, plan.digits) by {
      forall i | 0 <= i < |shifted| ensures shifted[i] < Pow16(plan.digits) {
        assert flat[i] in flat;
        assert flat[i] < plan.workRange;
        assert shifted[i] == flat[i] + offset;
        assert Alphabet(plan) == plan.workRange + offset;
      }
    }
    PixelRowsFlatten(rows, offset, plan.digits);
    FormatAllLength(shifted, plan.digits);
    ParseFormatAll(shifted, plan.digits);
  }

  /** The multicolor palette stream is one segment per row, each of
      `SegmentLength` characters: the border colour when set, then exactly
      `workRange * 3` palette bytes of that row. */
  function SegmentLength(plan: Plan): nat {
    2 * RowLength(plan)
  }

  /** The bytes behind one segment: the border's three, then three per slot. */
  function RowLength(plan: Plan): nat {
    3 * Offset(plan.border) + 3 * plan.workRange
  }

  /** Where row `y`'s segment starts. */
  function SegmentStart(plan: Plan, y: nat): nat {
    y * SegmentLength(plan)
  }

  lemma MulticolorPalette(plan: Plan, lines: seq<QuantizedLine>, y: nat)
    requires FullPalettes(lines, plan.workRange)
    requires y < |lines|
    ensures |MulticolorStreams(plan, lines).palette| == |lines| * SegmentLength(plan)
    ensures SegmentStart(plan, y) + SegmentLength(plan) <= |MulticolorStreams(plan, lines).palette|
    ensures ParseFixed(MulticolorStreams(plan, lines).palette[SegmentStart(plan, y) .. SegmentStart(plan, y) + SegmentLength(plan)], 2)
            == Some(BorderBytes(plan.border) + lines[y].palette[..3 * plan.workRange])
  {
    MulticolorPaletteBytes(plan, lines);
    StreamSegment(plan, lines, y);
  }

  /** The segment property, stated on the text of the palette stream's bytes. */
  lemma StreamSegment(plan: Plan, lines: seq<QuantizedLine>, y: nat)
    requires FullPalettes(lines, plan.workRange)
    requires y < |lines|
    ensures var text := Bytes(PaletteStreamBytes(lines, plan.workRange, plan.border));
            && |text| == |lines| * SegmentLength(plan)
            && SegmentStart(plan, y) + SegmentLength(plan) <= |text|
            && ParseFixed(text[SegmentStart(plan, y) .. SegmentStart(plan, y) + SegmentLength(plan)], 2)
               == Some(BorderBytes(plan.border) + lines[y].palette[..3 * plan.workRange])
  {
    var row := BorderBytes(plan.border) + lines[y].palette[..3 * plan.workRange];
    StreamRow(lines, plan.workRange, plan.border, y, RowLength(plan));
    SegmentInBytes(plan, y);
    SegmentInBytes(plan, |lines|);
    TextSegment(PaletteStreamBytes(lines, plan.workRange, plan.border), y * RowLength(plan), y * RowLength(plan) + RowLength(plan),
                SegmentStart(plan, y), SegmentStart(plan, y) + SegmentLength(plan), row);
  }

  /** Segment `y` starts at twice the byte offset of row `y`. */
  lemma SegmentInBytes(plan: Plan, y: nat)
    ensures 0 <= y * RowLength(plan)
    ensures SegmentStart(plan, y) == 2 * (y * RowLength(plan))
  {
    MulDouble(y, RowLength(plan));
  }

  /** With full palettes every row contributes `len` bytes, so row `y`'s
      bytes sit at offset `y * len` of the stream. */
  lemma StreamRow(lines: seq<QuantizedLine>, workRange: nat, border: Option<Rgb>, y: nat, len: nat)
    requires FullPalettes(lines, workRange)
    requires len == 3 * Offset(border) + 3 * workRange
    requires y < |lines|
    ensures |PaletteStreamBytes(lines, workRange, border)| == |lines| * len
    ensures y * len + len <= |PaletteStreamBytes(lines, workRange, border)|
    ensures PaletteStreamBytes(lines, workRange, border)[y * len .. y * len + len]
            == BorderBytes(border) + lines[y].palette[..3 * workRange]
  {
    var parts := RowsBytes(lines, workRange, border);
    FullRows(lines, workRange, border, len);
    ConcatUniformLength(parts, len);
    ConcatUniformPart(parts, len, y, y * len);
    FullRow(lines[y], workRange, border);
  }

  lemma FullRow(line: QuantizedLine, workRange: nat, border: Option<Rgb>)
    requires |line.palette| >= 3 * workRange
    ensures RowBytes(line, workRange, border) == BorderBytes(border) + line.palette[..3 * workRange]
  {
    assert Min(|line.palette|, 3 * workRange) == 3 * workRange;
  }

  lemma FullRows(lines: seq<QuantizedLine>, workRange: nat, border: Option<Rgb>, len: nat)
    requires FullPalettes(lines, workRange)
    requires len == 3 * Offset(border) + 3 * workRange
    ensures forall i :: 0 <= i < |RowsBytes(lines, workRange, border)| ==> |RowsBytes(lines, workRange, border)[i]| == len
  {
    forall i | 0 <= i < |lines| ensures |RowBytes(lines[i], workRange, border)| == len {
      assert Min(|lines[i].palette|, 3 * workRange) == 3 * workRange;
    }
  }

  /** Bytes `k` to `m` of a stream, read back from its text. */
  lemma TextSegment(bs: seq<byte>, k: nat, m: nat, start: nat, stop: nat, row: seq<byte>)
    requires k <= m <= |bs|
    requires start == 2 * k && stop == 2 * m
    requires bs[k..m] == row
    ensures stop <= |Bytes(bs)|
    ensures ParseFixed(Bytes(bs)[start .. stop], 2) == Some(row)
  {
    BytesSlice(bs, k, m);
  }

  /** SWEETIE-16, the TIC-80 default palette, as 96 hex digits, here in four
      rows of four colours. */
  const Sweetie16Rows: seq<string> := [
    "1a1c2c5d275db13e53ef7d57",
    "ffcd75a7f07038b764257179",
    "29366f3b5dc941a6f673eff7",
    "f4f4f494b0c2566c86333c57"
  ]
  const Sweetie16: string := Sweetie16Rows[0] + Sweetie16Rows[1] + Sweetie16Rows[2] + Sweetie16Rows[3]

  /** 16 colours of 3 bytes: the bytes the indexed palette takes from the image. */
  const PaletteBytes: nat := 48

  /** The position character `i` of an `n`-character string moves to when
      the two characters of every byte are swapped (a lone last character
      stays). */
  function PairPartner(i: nat, n: nat): nat {
    if i % 2 == 1 then i - 1 else if i + 1 < n then i + 1 else i
  }

  /** Reverses every two-character chunk, as
      `''.join(Pal[v:v + 2][::-1] for v in range(0, len(Pal), 2))` does. */
  function SwapPairs(s: string): (r: string)
    ensures |r| == |s|
    ensures forall i :: 0 <= i < |s| ==> r[i] == s[PairPartner(i, |s|)]
  {
    if |s| < 2 then s
    else
      var r := [s[1], s[0]] + SwapPairs(s[2..]);
      assert forall i :: 2 <= i < |s| ==> PairPartner(i, |s|) == PairPartner(i - 2, |s| - 2) + 2;
      r
  }

  lemma {:induction false} SwapPairsInvolution(s: string)
    ensures SwapPairs(SwapPairs(s)) == s
  {
    if |s| >= 2 {
      SwapPairsInvolution(s[2..]);
      assert SwapPairs(s)[2..] == SwapPairs(s[2..]);
    }
  }

  /** `get_indexed`'s palette: the first 16 colours of the image palette as
      hex, the rest of SWEETIE-16 from the same offset as filler, then every
      byte's two digits swapped. Always 96 characters; swapping back gives
      the image bytes followed by the filler. */
  function IndexedPalette(imagePalette: seq<byte>): (r: string)
    ensures |r| == |Sweetie16|
    ensures var k := Min(|imagePalette|, PaletteBytes);
            SwapPairs(r) == Bytes(imagePalette[..k]) + Sweetie16[2 * k..]
  {
    var pal := Bytes(imagePalette[..Min(|imagePalette|, PaletteBytes)]);
    var padded := pal + Sweetie16[|pal|..];
    SwapPairsInvolution(padded);
    SwapPairs(padded)
  }

  /** `get_indexed`'s pixels: one `'%0*x' % (1, index)` per pixel, row-major. */
  function IndexedPixels(rows: seq<seq<nat>>): (s: string)
    ensures Fit(Concat<nat>(rows), 1) ==> |s| == |Concat<nat>(rows)| && ParseFixed(s, 1) == Some(Concat<nat>(rows))
  {
    PixelRowsFlatten(rows, 0, 1);
    assert Shift(Concat<nat>(rows), 0) == Concat<nat>(rows);
    if Fit(Concat<nat>(rows), 1) then
      ParseFormatAll(Concat<nat>(rows), 1);
      FormatAllLength(Concat<nat>(rows), 1);
      Concat(PixelRows(rows, 0, 1))
    else
      Concat(PixelRows(rows, 0, 1))
  }

  /** `get_indexed`. */
  function IndexedStreams(image: PaletteImage): (s: Streams)
    ensures |s.palette| == |Sweetie16|
    ensures var k := Min(|image.palette|, PaletteBytes);
            SwapPairs(s.palette) == Bytes(image.palette[..k]) + Sweetie16[2 * k..]
    ensures Fit(Concat<nat>(image.pixels), 1) ==>
              |s.pixels| == |Concat<nat>(image.pixels)| && ParseFixed(s.pixels, 1) == Some(Concat<nat>(image.pixels))
  {
    Streams(IndexedPixels(image.pixels), IndexedPalette(image.palette))
  }

  /** An index of 16 or more takes two characters, so a one-pixel image can
      produce a two-character pixel stream. */
  lemma WideIndexOverflows()
    ensures IndexedPixels([[16]]) == "10"
  {
    var rows: seq<seq<nat>> := [[16]];
    PixelRowsFlatten(rows, 0, 1);
    assert Concat<nat>(rows) == [16];
    assert Shift([16], 0) == [16];
    assert Numeral(16) == Numeral(1) + [DigitChar(0)];
    assert FormatAll([16], 1) == Format(16, 1) + FormatAll([], 1);
  }
}

=== FILE: wrappers.dfy ===
/** Failure-carrying result types shared by the whole model. */
module Wrappers {

  /** A value that may be missing: the model's stand-in for a Python exception
      that has no further payload. */
  datatype Option<+T> = None | Some(value: T)

  /** A value or a typed error. */
  datatype Result<+T, +E> = Success(value: T) | Failure(error: E)
}
